=== FILE: README.md ===
# ai-mcp-sync reconciliation core, in Dafny

This project models the core of the ai-mcp-sync backend. That backend keeps the `mcp.json` file of every installed AI tool in line with one master MCP configuration.

The model covers five parts:
- **Data model (`Config`)**: servers, per-project overrides, settings, tool configurations and sync outcomes. It includes the defaults the JSON decoder fills in.
- **Merge engine (`Merge`, `Sync`)**:
  - the master's servers are kept as they are;
  - each tool server whose id is new is appended, in tool order;
  - overrides are merged the same way, keyed by project.
- **Per-tool sync step and tool discovery (`Sync`)**.
- **Settings store (`Db`)**: a class with one master row, a tool registry keyed by name, an append-only history and a recommended-server catalog.
- **`agentctl` command-line decisions (`Agentctl`)**:
  - how a difference is described;
  - how `--on`/`--off` resolve;
  - the in-place `enabled` toggle;
  - the `--agent` selection;
  - the `enabled` default of `apply`;
  - the status labels;
  - the `sync`, `feature toggle` and `list` flows built from these.

Files and stores are classes: `Files.FileSystem` and `Db.Database`. Their methods change fields and state the new contents in their postconditions.

Environment inputs are passed in explicitly:
- A store whose statements fail is a `Database` with `failing` set.
- A write that fails does so in one of two ways. A path in `FileSystem.unwritable` cannot be opened, so its file is kept. A path in `FileSystem.truncating` is emptied by the open and then fails, so it holds no settings afterwards.
- The clock is a `now` parameter.
- The directory walk of discovery is a sequence of walk entries.

## Layout

| file | module | contents |
|---|---|---|
| wrappers.dfy | Wrappers | `Option`, `Result` |
| errors.dfy | Errors | `BackendError` |
| config.dfy | Config | data model, defaults, field-level JSON decoding |
| seqs.dfy | Seqs | keys, first occurrences, order-keeping filter |
| merge.dfy | Merge | the merge as a specification, and its properties |
| files.dfy | Files | tool configuration files |
| db.dfy | Db | the settings store |
| sync.dfy | Sync | merge loops, `SyncTool`, discovery |
| agentctl.dfy | Agentctl | command-line decisions and flows |

## Model

| member | source | states |
|---|---|---|
| Config.DefaultServer | backend/src/config.rs:17-28 | The default server has id "default", name "Default MCP Server", the fallback description, endpoint "http://localhost:3001", no API key, and is enabled. |
| Config.EmptySettings | backend/src/config.rs:30-36 | Default settings have no servers and no overrides. |
| Config.NewToolConfiguration | backend/src/config.rs:55-67 | Keeps name, path and settings as given; the version is unknown (None). |
| Config.SettingsEqualityIsPositional | backend/src/config.rs:6-15 | Two settings are equal iff both lists have equal lengths and are equal position by position. Every server field counts, including `apiKey` and `enabled`, so order matters. |
| Config.DecodeServer | backend/src/config.rs:6-15 | A server decodes iff id, name and endpoint are present. Otherwise it is a serialization error. A missing `enabled` reads as false. |
| Config.DecodeOverride | backend/src/config.rs:38-45 | An override decodes iff project and server id are present; the last sync time stays optional. |
| Config.DecodeServers | backend/src/config.rs:30-33 | The list decodes iff every element decodes, element by element in order. |
| Config.DecodeOverrides | backend/src/config.rs:34-35 | The list decodes iff every element decodes, element by element in order. |
| Config.DecodeSettings | backend/src/config.rs:30-36 | Decodes iff every server and every override present decodes. Each present list decodes element by element into a list of the same length; an absent list reads as empty, and an object with neither list reads as the default settings. |
| Config.DecodeEncodeSettings | backend/src/config.rs:5-45 | Settings written out in full read back unchanged. |
| Seqs.FirstPos | backend/src/sync.rs:101-105 | The position of the first entry with a given key: its key matches and no earlier entry has it. |
| Seqs.FirstPosSnoc | backend/src/sync.rs:101-105 | Appending an entry never moves an existing first occurrence. |
| Seqs.KeysOfConcat | backend/src/sync.rs:95-105 | The keys of a concatenation are the union of the keys. |
| Seqs.UniqueKeysOfConcat | backend/src/sync.rs:95-105 | Two key-disjoint lists with unique keys concatenate to a list with unique keys. |
| Seqs.FilterMembership | backend/src/bin/agentctl.rs:405-414 | An element survives the filter iff it is in the list and satisfies the predicate. |
| Seqs.FilterConcat | backend/src/bin/agentctl.rs:238 | Filtering distributes over concatenation, so relative order is kept. |
| Seqs.FilterEmpty | backend/src/bin/agentctl.rs:417-424 | The filter is empty iff no element satisfies the predicate. |
| Merge.NewEntriesSkipsKnown | backend/src/sync.rs:101-105 | Entries whose keys are already seen contribute nothing. |
| Merge.NewEntriesOfFresh | backend/src/sync.rs:101-105 | A list whose keys are unique and unseen is appended whole. |
| Merge.NewEntriesShape | backend/src/sync.rs:101-105 | Appended entries come from the tool list and have unseen keys. Their keys are exactly the tool keys minus the seen ones, each once. |
| Merge.NewEntriesAreFirst | backend/src/sync.rs:101-105 | Each appended entry is the first tool entry with its key. |
| Merge.NewEntriesInFirstOrder | backend/src/sync.rs:101-105 | Appended entries keep the tool list's order of first occurrences. |
| Merge.MergedSelf | backend/src/sync.rs:89-92 | Merging the master with itself gives the master. |
| Merge.MergedIsAlwaysKeyed | backend/src/sync.rs:89-110 | The shortcut for an equal tool gives the same result as the keyed merge, so it is only an optimisation. |
| Merge.MergedKeepsMasterFirst | backend/src/sync.rs:94-108 | The result begins with the master's servers and overrides, unchanged and in order. Everything after them comes from the tool. |
| Merge.MergedMasterWins | backend/src/sync.rs:94-105 | A merged server whose id is a master id is the master's server, and likewise for override projects. The tool's version is discarded. |
| Merge.MergedCoversBoth | backend/src/sync.rs:95-108 | The merged ids are the union of the master and tool ids; the same holds for override projects. |
| Merge.MergedUnique | backend/src/sync.rs:95-108 | If the master's ids are unique, the merged ids are unique; the same holds for projects. |
| Merge.MergedAppendsFirstOccurrences | backend/src/sync.rs:101-105 | Each appended server is the first tool server with its id, and the appended ones are in tool order. |
| Merge.MergedIdempotent | backend/src/sync.rs:89-126 | Merging the master into a merge result changes nothing. |
| Merge.MergedScenario | backend/src/sync.rs:89-126 | Master [default] with tool [default', custom] gives [default, custom]. The master's default wins. |
| Sync.MergeProjectOverrides | backend/src/sync.rs:112-126 | The loop with a seen set computes the keyed merge by project; the server id is never consulted. |
| Sync.MergeSettings | backend/src/sync.rs:89-110 | The loop computes `Merge.Merged`: the equal-tool shortcut, then servers by id, then overrides. |
| Sync.SyncTool | backend/src/sync.rs:59-87 | Succeeds iff the store answers and either the tool already equals the master or its path is writable. A failed write is Io and adds no row; a failed insert is the store error after the write. An equal tool is Skipped "Already up-to-date" and no file is touched. Otherwise it is Updated "Configuration updated", and the files are those an attempt to write the merge leaves (`Sync.SyncedFiles`). One row is added on success. Never Failed. |
| Sync.DetectTool | backend/src/sync.rs:26-39 | Succeeds iff the file reads and the store answers; the error is the read error, else the store's. On success the tool is reported and registered under its name with its path; on error the registry is unchanged. |
| Sync.FoundStep | backend/src/sync.rs:21-26 | The configurations among one more walk entry are the earlier ones plus that entry when it is an `mcp.json` file. |
| Sync.FoundSplit | backend/src/sync.rs:21-26 | The configurations of the whole walk begin with those found so far, followed by the current entry. |
| Sync.DiscoveredStep | backend/src/sync.rs:34-39 | Reporting and registering one more configuration keeps what discovery has reported and registered so far. |
| Sync.StoppedNotDiscoverable | backend/src/sync.rs:34-37 | Where discovery stops with an error, not every configuration was discoverable. |
| Sync.DetectionStopped | backend/src/sync.rs:34-37 | A failed detection of a walk entry is where discovery stops, so the walk was not discoverable. |
| Sync.ToolName | backend/src/sync.rs:28-33 | A tool is named after its file's parent directory, or "unknown" when there is none. |
| Sync.RegisteredKeys | backend/src/sync.rs:34-38 | Discovery adds exactly the found tool names to the registry. |
| Sync.RegisteredKeepsOthers | backend/src/db.rs:164-173 | Tools that were not found keep their registry row. |
| Sync.RegisteredLastWins | backend/src/db.rs:164-173 | A name found twice ends with the path found last. |
| Sync.DiscoverTools | backend/src/sync.rs:15-42 | A missing root gives no tools and no change. Otherwise discovery succeeds iff every `mcp.json` file, in walk order, reads and the store answers. On success each is reported and registered. On error it stopped at some found file: all earlier ones were read and registered, and that one either did not read (its error) or the store failed. |
| Sync.TwoToolWalkFound | backend/src/sync.rs:21-26 | Only files named `mcp.json` are tool configurations; directories are not. |
| Sync.JoinToolPath | backend/src/sync.rs:27-36 | A discovered path is the root, the tool directory and `mcp.json`, joined with "/". |
| Sync.RegisteredPair | backend/src/db.rs:164-173 | Registering two found files upserts the first tool's row, then the second's, each with its joined path and the run's time. |
| Sync.ScenarioPaths | backend/src/sync.rs:27-36 | The files toolA/mcp.json and toolB/mcp.json under the root are named toolA and toolB, and their paths join to "../tool_configs/toolA/mcp.json" and "../tool_configs/toolB/mcp.json". |
| Sync.DiscoveryScenario | backend/src/sync.rs:15-42 | A root with toolA/ and toolB/ registers exactly toolA and toolB, each with its file's path. |
| Sync.RootLevelConfigNamedAfterRoot | backend/src/sync.rs:28-33 | An `mcp.json` directly in the root is named after the root directory. |
| Files.FileSystem.ReadSettings | backend/src/sync.rs:44-48 | A missing file is an Io error. A non-settings file is a serialization error. Otherwise the contents decode with the field defaults. |
| Files.FileSystem.WriteSettings | backend/src/sync.rs:50-57 | Succeeds iff the path is writable. A path that cannot be opened is an Io error and its file is kept. A path emptied before the write failed is an Io error and then reads as a serialization error. On success only that path's file is replaced, and it reads back as the written settings. |
| Db.DefaultMaster | backend/src/db.rs:153-156 | The initial master has exactly the default server and no overrides. |
| Db.DecodeStatus | backend/src/db.rs:219-223 | "updated" reads as Updated, "skipped" as Skipped, any other text as Failed. |
| Db.StatusRoundTrip | backend/src/db.rs:196 | A stored status reads back as itself. |
| Db.EncodeStatus | backend/src/db.rs:196 | Updated, Skipped and Failed are stored as "updated", "skipped" and "failed". |
| Db.RowRoundTrip | backend/src/db.rs:190-202 | A recorded outcome reads back unchanged. |
| Db.InsertByTimeSorted | backend/src/db.rs:207 | Inserting a row into a newest-first list keeps it newest-first. |
| Db.InsertByTimePermutes | backend/src/db.rs:207 | Inserting adds exactly that row. |
| Db.NewestFirstIsSortedPermutation | backend/src/db.rs:207 | The history order is a rearrangement of all rows, by descending sync time. |
| Db.RowLimit | backend/src/db.rs:207-209 | At most `limit` rows; a limit of 2^63 or more wraps negative when cast and removes the bound. |
| Db.LexLeTotal | backend/src/db.rs:177 | Name order is total. |
| Db.LexLeAntisymmetric | backend/src/db.rs:177 | Names ordered both ways are equal. |
| Db.LexLeTransitive | backend/src/db.rs:177 | Name order is transitive. |
| Db.LeastNameExists | backend/src/db.rs:177 | Every non-empty set of names has a least one. |
| Db.ListingStep | backend/src/db.rs:177-187 | Listing the least remaining name keeps the listed names ascending and complete. |
| Db.SeedStep | backend/src/db.rs:88-104 | Each `INSERT OR IGNORE` keeps, under each id, the first default with that id. |
| Db.Database.Initialize | backend/src/db.rs:20-32 | Opening a store keeps the master, tools and history already stored. A non-empty catalog is kept; an empty one is seeded from the defaults, first default per id. |
| Db.Database.SeedRecommendedServers | backend/src/db.rs:82-107 | Only an empty catalog is seeded: each default id maps to the first default with it. A non-empty catalog stays as it is. |
| Db.Database.GetRecommendedServer | backend/src/db.rs:268-299 | Finds the catalog entry with that id, or nothing. |
| Db.Database.UpsertMasterConfig | backend/src/db.rs:109-119 | The single master row is replaced, or created, with the settings and the time. |
| Db.Database.GetMasterConfig | backend/src/db.rs:121-147 | A failing store gives its error. Otherwise no master row is ConfigNotFound, and a stored one is returned with its settings and time. |
| Db.Database.EnsureMasterConfig | backend/src/db.rs:149-162 | A stored master is returned unchanged. Without one, the default master is stored and returned. A store error changes nothing. |
| Db.Database.RecordToolDetection | backend/src/db.rs:164-173 | One row per name: the path and time are set for that name, and every other tool is unchanged. |
| Db.Database.ListTools | backend/src/db.rs:175-188 | Lists every registered tool once, with its path, by strictly ascending name. |
| Db.Database.RecordSync | backend/src/db.rs:190-202 | Appends exactly the encoded outcome to the history. |
| Db.Database.RecentSyncHistory | backend/src/db.rs:204-235 | Returns the first `RowLimit` rows of the newest-first history, decoded, in descending sync time. |
| Agentctl.DescribeDiff | backend/src/bin/agentctl.rs:398-429 | No description exactly when the settings are equal. |
| Agentctl.MissingIdsMembership | backend/src/bin/agentctl.rs:405-409 | An id is missing iff a master server has it and no tool server does. |
| Agentctl.ExtraIdsMembership | backend/src/bin/agentctl.rs:410-414 | An id is extra iff a tool server has it and no master server does. |
| Agentctl.NoPartsIffSameIds | backend/src/bin/agentctl.rs:416-424 | Neither part appears iff the master and tool have the same set of ids. |
| Agentctl.DescribeDiffCases | backend/src/bin/agentctl.rs:416-428 | Different settings with the same ids give the fixed fallback text. Different ids give the joined parts, of which there is at least one. |
| Agentctl.DescribeDiffScenario | backend/src/bin/agentctl.rs:416-427 | Master [a, b] against tool [b, c] reads "a 추가 필요 / c 제거 확인": missing first, then extra. |
| Agentctl.ResolveToggle | backend/src/bin/agentctl.rs:288-297 | Succeeds iff exactly one flag is set, and then yields `--on`. Both flags and no flag each give their own message. |
| Agentctl.ServerIndex | backend/src/bin/agentctl.rs:300-303 | The position of the first server with the id, or the length when none has it. |
| Agentctl.ToggledEffect | backend/src/bin/agentctl.rs:299-305 | The toggle fails iff no server has the id. Otherwise only `enabled` of the first such server changes; other servers, its other fields and the overrides stay as they were. |
| Agentctl.ToggleBackRestores | backend/src/bin/agentctl.rs:299-305 | Switching the server back to its previous state gives the original master. |
| Agentctl.SetServerEnabled | backend/src/bin/agentctl.rs:299-305 | The search-and-assign loop computes the toggle and fails with the not-found message when there is no such server. |
| Agentctl.RetainAgent | backend/src/bin/agentctl.rs:237-239 | Without `--agent`, everything is kept. With it, exactly the entries of that name, in order. |
| Agentctl.SelectedEntries | backend/src/bin/agentctl.rs:237-239 | An entry is kept iff it has the name; a listing with distinct names keeps at most one. |
| Agentctl.AtMostOneNamed | backend/src/bin/agentctl.rs:237-239 | Distinct names select at most one entry, and an absent name selects none. |
| Agentctl.OrderKept | backend/src/bin/agentctl.rs:237-239 | Selecting by name keeps an ascending listing ascending. |
| Agentctl.ApplyEnabled | backend/src/bin/agentctl.rs:221 | Uses the requested `enabled` when given, else the recommended server's default. |
| Agentctl.StatusLabel | backend/src/bin/agentctl.rs:449-455 | Updated, Skipped and Failed are shown as "업데이트", "동일" and "실패". |
| Agentctl.StatusLabelInjective | backend/src/bin/agentctl.rs:449-455 | Different outcomes get different labels. |
| Agentctl.LoadStep | backend/src/bin/agentctl.rs:322-329 | One round of loading keeps the loaded tools readable, complete so far and ascending. |
| Agentctl.LoadToolConfigs | backend/src/bin/agentctl.rs:320-331 | The readable registered tools, each built from its file, every one of them, by ascending name. Unreadable ones are skipped; only a store error fails. |
| Agentctl.SyncToolForAgent | backend/src/bin/agentctl.rs:382-396 | A failing store: that error, nothing changes. Unknown agent: the not-found message, nothing changes. Otherwise the agent's registry entry is synced as by `Agentctl.SyncEntry`: the outcome and the one row added carry "Already up-to-date" when Skipped and "Configuration updated" when Updated. |
| Agentctl.Rows | backend/src/db.rs:190-202 | The rows recorded for a list of outcomes, each reading back as its outcome. |
| Agentctl.RowsSnoc | backend/src/db.rs:190-202 | Recording one more outcome adds its row at the end. |
| Agentctl.SelectTools | backend/src/bin/agentctl.rs:235-239 | The selected names are all registered tools, or those of the agent's name; each has its path, and names ascend. |
| Agentctl.HandleSync | backend/src/bin/agentctl.rs:232-257 | A failing store: that error before anything is listed, with no master stored and no file or history changed. Otherwise the master is ensured first. With distinct registry paths, the run succeeds iff every chosen tool's file reads and is equal to the master or writable. On success, the outcomes cover exactly the chosen tools in ascending order, none Failed, each timed `now` with "Already up-to-date" when Skipped and "Configuration updated" when Updated, and the history grows by exactly their rows. Each chosen file holds the merge, or is untouched and reported Skipped iff it equalled the master; every other file is unchanged. A run that fails stopped at some chosen tool: the history grows by the outcomes of exactly the chosen tools before it, ascending, with the same times and messages. An unknown agent syncs nothing. |
| Agentctl.SyncEntry | backend/src/bin/agentctl.rs:250-253 | A file that does not read: that error and no change. Otherwise succeeds iff the store answers and the file equals the master or is writable. The files are those the sync's write leaves, and the outcome names the entry's tool. It is Skipped iff the file equalled the master, is never Failed, is timed `now`, and carries "Already up-to-date" when Skipped and "Configuration updated" when Updated. It is the one row added, message included. On error no row is added. |
| Agentctl.ReportsCover | backend/src/bin/agentctl.rs:250-254 | Outcomes that report on the entries name exactly the entries' tools, in the entries' ascending order. |
| Agentctl.StoppedRun | backend/src/bin/agentctl.rs:250-253 | Outcomes for a proper prefix of an ascending run name exactly the run's tools ordered before the first one left out. |
| Agentctl.SelectionShape | backend/src/bin/agentctl.rs:235-239 | Selecting from the registry listing gives the chosen names, each with its registered path, still ascending. |
| Agentctl.SyncEntries | backend/src/bin/agentctl.rs:250-254 | On success, one outcome per entry, in order, each timed `now`, never Failed, with "Already up-to-date" when Skipped and "Configuration updated" when Updated, and each recorded in the history. On failure, the history holds the outcomes, messages included, of the entries before the failing one. No entries: no change. With distinct paths, the run succeeds iff every entry's file reads and is equal to the master or writable. On success each file holds the merge, or is untouched and reported Skipped iff it equalled the master, and no other file changes. |
| Agentctl.SyncChosen | backend/src/bin/agentctl.rs:235-256 | The `sync` loop against a given master: the same outcome, message, history and file effects as `Agentctl.HandleSync`, including the rows a run that fails part way leaves, and a failing store is that error with nothing changed. |
| Agentctl.SyncSelected | backend/src/bin/agentctl.rs:241-256 | The loop over the selected registry entries with a store that answers: outcomes for exactly the chosen tools, ascending, each timed `now` with the message of its status and recorded in the history. With distinct registry paths it succeeds iff every chosen tool is syncable, and every chosen file is then synced. A run that fails leaves the rows of the chosen tools before the one it stopped at. No chosen tool: no change. |
| Agentctl.SelectionSynced | backend/src/bin/agentctl.rs:235-254 | A run over the registry selection reports on exactly the chosen tools, ascending. With distinct registry paths, it succeeds iff every chosen tool is syncable, and then every chosen file is synced. |
| Agentctl.EntryReported | backend/src/bin/agentctl.rs:250-253 | A synced entry extends the run's outcomes and history by its own outcome. |
| Agentctl.UntouchedRead | backend/src/bin/agentctl.rs:250-253 | With distinct paths, an entry's file is still as it was before the run when its turn comes. |
| Agentctl.FilesSyncedStep | backend/src/bin/agentctl.rs:250-253 | Syncing one more entry keeps every earlier entry's file effect and leaves other files unchanged. |
| Agentctl.EarlierEntriesKept | backend/src/bin/agentctl.rs:250-253 | With distinct paths, writing the current entry's file keeps every earlier entry's synced file. |
| Agentctl.EntriesSyncedSnoc | backend/src/bin/agentctl.rs:250-253 | The synced files of the earlier entries plus the current one are the synced files of the longer run. |
| Agentctl.UnchangedStep | backend/src/sync.rs:50-57 | Changing at most one more file keeps every file outside the touched ones and that file as it was. |
| Agentctl.RunStep | backend/src/bin/agentctl.rs:250-253 | An entry that fails shows the run was not syncable; one that succeeds extends the progress. |
| Agentctl.ProgressDone | backend/src/bin/agentctl.rs:250-254 | Progress over every entry means the run was syncable and is its whole effect on files. |
| Agentctl.EntriesOfRegistry | backend/src/bin/agentctl.rs:235-239 | Registry entries with distinct paths have distinct paths. Their run is syncable iff every chosen tool is. |
| Agentctl.EntriesSyncedAsTools | backend/src/bin/agentctl.rs:235-254 | The run's file effect over the selected entries is the effect on each chosen tool's registered path. |
| Agentctl.HandleFeatureToggle | backend/src/bin/agentctl.rs:283-318 | Bad flags fail before the store is touched. A failing store gives the store error and changes nothing. An unknown key fails with the not-found message, leaving the ensured master stored and no file or history changed. Otherwise the toggled master is stored whatever the sync gives, and the agent is synced against it as by `Agentctl.SyncToolForAgent`, the outcome and its row carrying "Already up-to-date" when Skipped and "Configuration updated" when Updated. |

## Left out

- SQL text, rusqlite, the connection `Mutex` and concurrency. The store is one class whose fields are the tables.
- Store failure is all or nothing. A store that answered one statement answers the rest of a command, so the model never fails a later statement after an earlier one succeeded.
- The clock: each command receives one `now`. RFC 3339 formatting and parsing are left out, so the parse errors of `get_master_config` and `recent_sync_history` are not modelled. The history is ordered by the instant rather than by its text.
- Db.Database.GetMasterConfig: stored content that no longer parses as settings is not modelled. The store keeps settings values, not JSON text.
- Db.NewestFirst: SQL leaves the order of equal timestamps open. The model puts the later-recorded row first.
- JSON text: files hold decoded settings (`Files.FileContent`), so only field presence and defaults are modelled, not syntax. Files that do not parse are `NotJson`.
- The directory walk of discovery (depth 2, unreadable entries skipped) is given as the sequence of entries it yields. Non-UTF-8 directory names, which also give "unknown", are not modelled.
- `McpSettings::apply_recommended_server`, the `apply` command flow and `default_recommended_servers`: their definitions are not part of this model. The catalog defaults are a constructor parameter, and only `enabled` defaulting (`Agentctl.ApplyEnabled`) and the catalog lookup are modelled.
- `list_recommended_servers`: its ordering by name with ties left to SQLite. Its result feeds printing and the HTTP API, both left out.
- Printing and formatting in `agentctl` (`print_*`, `handle_list` and `handle_history` output, `format_status`), STDIN reading, the `master show`/`master set` commands and `scan`'s output. The flows return the outcomes they would print.
- The `--type` check of `handle_feature_toggle`: the only feature type is `server`, so its error branch cannot be reached.
- The HTTP API (`api.rs`), server startup (`main.rs`), the HTTP status mapping of errors (`error.rs`; only the error kinds are kept) and the frontend.
- Agentctl.HandleSync, Agentctl.SyncChosen, Agentctl.SyncEntries: after an error part way through, the rows recorded so far are stated but the files are not. The earlier tools' files are synced, and the failing tool's file may have been emptied by a write that failed after truncating it.
- Agentctl.HandleSync, Agentctl.SyncEntries, Agentctl.SyncChosen: the per-file effects and the success condition are stated only when no two registered tools share a configuration path. With a shared path the second tool reads the first tool's output, so the outcome depends on the order.

=== FILE: agentctl.dfy ===
/** The decisions of the `agentctl` command line: how a difference from the
  * master is described, how the `--on`/`--off` flags resolve, how a server
  * is switched on or off in the master, which tools `sync --agent` selects,
  * and the commands that tie these to the store, the files and the sync
  * step. What the commands print is left to the caller: they return the
  * summaries they would print. */
module Agentctl {
  import opened Wrappers
  import opened Errors
  import opened Config
  import opened Seqs
  import opened Merge
  import opened Files
  import opened Db
  import opened Sync

  /** A command's error: one from the store or the files, passed through, or
    * one the command line words itself. */
  datatype CliError = Backend(cause: BackendError) | Message(text: string)

  // ---------------------------------------------------------------------
  // describe_diff

  /** The server ids, in order. */
  function Ids(servers: seq<McpServer>): (ids: seq<string>)
    ensures |ids| == |servers|
    ensures forall i :: 0 <= i < |servers| ==> ids[i] == servers[i].id
  {
    seq(|servers|, i requires 0 <= i < |servers| => servers[i].id)
  }

  function NotIn(ids: seq<string>): string -> bool {
    id => id !in ids
  }

  /** The master's server ids the tool lacks, in master order. */
  function MissingIds(master: McpSettings, tool: McpSettings): seq<string> {
    Filter(Ids(master.servers), NotIn(Ids(tool.servers)))
  }

  /** The tool's server ids the master lacks, in tool order. */
  function ExtraIds(master: McpSettings, tool: McpSettings): seq<string> {
    Filter(Ids(tool.servers), NotIn(Ids(master.servers)))
  }

  /** The parts joined with `sep` between neighbours. */
  function Join(parts: seq<string>, sep: string): string {
    if parts == [] then ""
    else if |parts| == 1 then parts[0]
    else parts[0] + sep + Join(parts[1..], sep)
  }

  const DIFF_FALLBACK := "서버 구성 차이 존재"

  /** The missing part, then the extra part, each only when it lists something. */
  function DiffParts(missing: seq<string>, extra: seq<string>): seq<string> {
    (if missing != [] then [Join(missing, ", ") + " 추가 필요"] else []) +
    (if extra != [] then [Join(extra, ", ") + " 제거 확인"] else [])
  }

  /** `describe_diff`: nothing for settings equal to the master, otherwise the
    * ids to add and the ids to check for removal, or a fixed text when the
    * two hold the same ids and differ elsewhere. */
  function DescribeDiff(master: McpSettings, tool: McpSettings): (r: Option<string>)
    ensures r.None? <==> master == tool
  {
    if master == tool then None
    else
      var parts := DiffParts(MissingIds(master, tool), ExtraIds(master, tool));
      if parts == [] then Some(DIFF_FALLBACK) else Some(Join(parts, " / "))
  }

  /** An id is reported missing exactly when some master server has it and no
    * tool server does. */
  lemma MissingIdsMembership(master: McpSettings, tool: McpSettings, id: string)
    ensures id in MissingIds(master, tool) <==>
      (exists i :: 0 <= i < |master.servers| && master.servers[i].id == id) &&
      (forall j :: 0 <= j < |tool.servers| ==> tool.servers[j].id != id)
  {
    FilterMembership(Ids(master.servers), NotIn(Ids(tool.servers)), id);
    var mids, tids := Ids(master.servers), Ids(tool.servers);
    if id in mids {
      var i :| 0 <= i < |mids| && mids[i] == id;
      assert master.servers[i].id == id;
    }
    if id in tids {
      var j :| 0 <= j < |tids| && tids[j] == id;
      assert tool.servers[j].id == id;
    }
  }

  /** An id is reported extra exactly when some tool server has it and no
    * master server does. */
  lemma ExtraIdsMembership(master: McpSettings, tool: McpSettings, id: string)
    ensures id in ExtraIds(master, tool) <==>
      (exists j :: 0 <= j < |tool.servers| && tool.servers[j].id == id) &&
      (forall i :: 0 <= i < |master.servers| ==> master.servers[i].id != id)
  {
    FilterMembership(Ids(tool.servers), NotIn(Ids(master.servers)), id);
    var mids, tids := Ids(master.servers), Ids(tool.servers);
    if id in mids {
      var i :| 0 <= i < |mids| && mids[i] == id;
      assert master.servers[i].id == id;
    }
    if id in tids {
      var j :| 0 <= j < |tids| && tids[j] == id;
      assert tool.servers[j].id == id;
    }
  }

  /** Nothing is missing and nothing extra exactly when both hold the same
    * set of ids. */
  lemma NoPartsIffSameIds(master: McpSettings, tool: McpSettings)
    ensures DiffParts(MissingIds(master, tool), ExtraIds(master, tool)) == [] <==>
      Keys(master.servers, ServerId) == Keys(tool.servers, ServerId)
  {
    var mk, tk := Keys(master.servers, ServerId), Keys(tool.servers, ServerId);
    var mids, tids := Ids(master.servers), Ids(tool.servers);
    FilterEmpty(mids, NotIn(tids));
    FilterEmpty(tids, NotIn(mids));
    if MissingIds(master, tool) == [] && ExtraIds(master, tool) == [] {
      forall id | id in mk ensures id in tk {
        MissingIdsMembership(master, tool, id);
      }
      forall id | id in tk ensures id in mk {
        ExtraIdsMembership(master, tool, id);
      }
    }
    if mk == tk {
      forall i | 0 <= i < |mids| ensures mids[i] in tids {
        assert mids[i] in tk;
        var j :| 0 <= j < |tool.servers| && tool.servers[j].id == mids[i];
        assert tids[j] == mids[i];
      }
      forall j | 0 <= j < |tids| ensures tids[j] in mids {
        assert tids[j] in mk;
        var i :| 0 <= i < |master.servers| && master.servers[i].id == tids[j];
        assert mids[i] == tids[j];
      }
    }
  }

  /** Settings that differ but hold the same ids get the fixed text; settings
    * with different ids get the joined parts, of which there is at least one. */
  lemma DescribeDiffCases(master: McpSettings, tool: McpSettings)
    requires master != tool
    ensures Keys(master.servers, ServerId) == Keys(tool.servers, ServerId) ==>
      DescribeDiff(master, tool) == Some(DIFF_FALLBACK)
    ensures Keys(master.servers, ServerId) != Keys(tool.servers, ServerId) ==>
      var parts := DiffParts(MissingIds(master, tool), ExtraIds(master, tool));
      parts != [] && DescribeDiff(master, tool) == Some(Join(parts, " / "))
  {
    NoPartsIffSameIds(master, tool);
  }

  function ServerWithId(id: string): McpServer {
    McpServer(id, id, None, "http://localhost", None, true)
  }

  /** A master with servers a, b against a tool with b, c: a is to be added,
    * c to be checked, in that order. */
  lemma DescribeDiffScenario()
    ensures DescribeDiff(McpSettings([ServerWithId("a"), ServerWithId("b")], []),
                         McpSettings([ServerWithId("b"), ServerWithId("c")], [])) ==
            Some("a 추가 필요 / c 제거 확인")
  {
    var m := McpSettings([ServerWithId("a"), ServerWithId("b")], []);
    var t := McpSettings([ServerWithId("b"), ServerWithId("c")], []);
    assert m.servers[0].id != t.servers[0].id;
    assert Ids(m.servers) == ["a", "b"];
    assert Ids(t.servers) == ["b", "c"];
    assert ["a", "b"][1..] == ["b"] && ["b", "c"][1..] == ["c"];
    assert MissingIds(m, t) == ["a"];
    assert ExtraIds(m, t) == ["c"];
    assert Join(["a"], ", ") == "a" && Join(["c"], ", ") == "c";
    assert "a" + " 추가 필요" == "a 추가 필요" && "c" + " 제거 확인" == "c 제거 확인";
    var parts := DiffParts(["a"], ["c"]);
    assert parts == ["a 추가 필요", "c 제거 확인"];
    assert "a 추가 필요" + " / " + "c 제거 확인" == "a 추가 필요 / c 제거 확인";
    assert parts[1..] == ["c 제거 확인"];
  }

  // ---------------------------------------------------------------------
  // feature toggle

  const BOTH_FLAGS_ERROR := "--on 과 --off 를 동시에 사용할 수 없습니다."
  const NO_FLAG_ERROR := "--on 또는 --off 중 하나를 지정하세요."

  /** The `--on`/`--off` flags: exactly one of them must be given, and the
    * desired state is whether it was `--on`. */
  function ResolveToggle(on: bool, off: bool): (r: Result<bool, string>)
    ensures r.Ok? <==> on != off
    ensures r.Ok? ==> r.value == on && r.value != off
    ensures on && off ==> r == Err(BOTH_FLAGS_ERROR)
    ensures !on && !off ==> r == Err(NO_FLAG_ERROR)
  {
    match (on, off)
    case (true, false) => Ok(true)
    case (false, true) => Ok(false)
    case (true, true) => Err(BOTH_FLAGS_ERROR)
    case (false, false) => Err(NO_FLAG_ERROR)
  }

  /** The position of the first server with id `key`, or |servers| when there is none. */
  function ServerIndex(servers: seq<McpServer>, key: string): (i: nat)
    ensures i <= |servers|
    ensures i < |servers| ==> servers[i].id == key
    ensures forall j :: 0 <= j < i ==> servers[j].id != key
  {
    FirstPos(ServerWithId(key), servers, ServerId)
  }

  function ServerNotFound(key: string): string {
    "마스터 구성에서 '" + key + "' 서버를 찾을 수 없습니다."
  }

  /** The master with the first server of id `key` switched to `desired`. */
  function Toggled(master: McpSettings, key: string, desired: bool): Result<McpSettings, CliError> {
    var i := ServerIndex(master.servers, key);
    if i == |master.servers| then Err(Message(ServerNotFound(key)))
    else Ok(master.(servers := master.servers[i := master.servers[i].(enabled := desired)]))
  }

  /** Toggling fails exactly when no server has the id; otherwise it sets
    * `enabled` on the first such server and changes nothing else: not that
    * server's other fields, not the other servers, not the overrides. */
  lemma ToggledEffect(master: McpSettings, key: string, desired: bool)
    ensures Toggled(master, key, desired).Err? <==> key !in Keys(master.servers, ServerId)
    ensures Toggled(master, key, desired).Ok? ==>
      var t := Toggled(master, key, desired).value;
      var i := ServerIndex(master.servers, key);
      && |t.servers| == |master.servers|
      && t.servers[i].id == key && t.servers[i].enabled == desired
      && t.servers[i] == master.servers[i].(enabled := desired)
      && (forall j :: 0 <= j < |t.servers| && j != i ==> t.servers[j] == master.servers[j])
      && t.projectOverrides == master.projectOverrides
      && Keys(t.servers, ServerId) == Keys(master.servers, ServerId)
  {
    var i := ServerIndex(master.servers, key);
    if i == |master.servers| {
      assert key !in Keys(master.servers, ServerId);
    } else {
      assert key in Keys(master.servers, ServerId);
      var t := Toggled(master, key, desired).value;
      forall id | id in Keys(master.servers, ServerId) ensures id in Keys(t.servers, ServerId) {
        var j :| 0 <= j < |master.servers| && master.servers[j].id == id;
        assert t.servers[j].id == id;
      }
    }
  }

  /** Switching a server back to its previous state restores the master. */
  lemma ToggleBackRestores(master: McpSettings, key: string, desired: bool)
    requires Toggled(master, key, desired).Ok?
    ensures var i := ServerIndex(master.servers, key);
      Toggled(Toggled(master, key, desired).value, key, master.servers[i].enabled) == Ok(master)
  {
    var i := ServerIndex(master.servers, key);
    var t := Toggled(master, key, desired).value;
    assert forall j :: 0 <= j < |t.servers| ==> t.servers[j].id == master.servers[j].id;
    assert ServerIndex(t.servers, key) == i by {
      ServerIndexUnique(t.servers, key, i);
    }
    assert t.servers[i := t.servers[i].(enabled := master.servers[i].enabled)] == master.servers;
  }

  /** The first server with the id is the one ServerIndex finds. */
  lemma ServerIndexUnique(servers: seq<McpServer>, key: string, i: nat)
    requires i < |servers| && servers[i].id == key
    requires forall j :: 0 <= j < i ==> servers[j].id != key
    ensures ServerIndex(servers, key) == i
  {
  }

  /** `handle_feature_toggle`'s `iter_mut().find` and assignment: searches the
    * servers for the first with id `key` and switches it. */
  method SetServerEnabled(master: McpSettings, key: string, desired: bool) returns (r: Result<McpSettings, CliError>)
    ensures r == Toggled(master, key, desired)
  {
    var servers := master.servers;
    var i := 0;
    while i < |servers| && servers[i].id != key
      invariant 0 <= i <= |servers|
      invariant forall j :: 0 <= j < i ==> servers[j].id != key
    {
      i := i + 1;
    }
    if i == |servers| {
      return Err(Message(ServerNotFound(key)));
    }
    ServerIndexUnique(servers, key, i);
    servers := servers[i := servers[i].(enabled := desired)];
    return Ok(master.(servers := servers));
  }

  // ---------------------------------------------------------------------
  // tool selection, defaults and labels

  function NameIs(target: string): ((string, string)) -> bool {
    (e: (string, string)) => e.0 == target
  }

  /** The registry entries named `target`, in their order. */
  function Selected(entries: seq<(string, string)>, target: string): seq<(string, string)> {
    Filter(entries, NameIs(target))
  }

  /** `handle_sync`'s `retain`: with `--agent`, keeps the entries with that
    * name, in order; without it, keeps everything. */
  method RetainAgent(entries: seq<(string, string)>, agent: Option<string>) returns (kept: seq<(string, string)>)
    ensures agent.None? ==> kept == entries
    ensures agent.Some? ==> kept == Selected(entries, agent.value)
  {
    if agent.None? {
      return entries;
    }
    kept := [];
    for i := 0 to |entries|
      invariant kept == Selected(entries[..i], agent.value)
    {
      assert entries[..i + 1] == entries[..i] + [entries[i]];
      FilterConcat(entries[..i], [entries[i]], NameIs(agent.value));
      assert [entries[i]][1..] == [];
      if entries[i].0 == agent.value {
        kept := kept + [entries[i]];
      }
    }
    assert entries[..|entries|] == entries;
  }

  /** An entry is selected exactly when it is in the registry listing under
    * that name; a listing with distinct names yields at most one. */
  lemma SelectedEntries(entries: seq<(string, string)>, target: string)
    ensures forall e :: e in Selected(entries, target) <==> e in entries && e.0 == target
    ensures (forall i, j :: 0 <= i < j < |entries| ==> entries[i].0 != entries[j].0) ==>
      |Selected(entries, target)| <= 1
  {
    forall e ensures e in Selected(entries, target) <==> e in entries && e.0 == target {
      FilterMembership(entries, NameIs(target), e);
    }
    if (forall i, j :: 0 <= i < j < |entries| ==> entries[i].0 != entries[j].0) {
      AtMostOneNamed(entries, target);
    }
  }

  lemma {:induction false} AtMostOneNamed(entries: seq<(string, string)>, target: string)
    requires forall i, j :: 0 <= i < j < |entries| ==> entries[i].0 != entries[j].0
    ensures |Selected(entries, target)| <= 1
    ensures target !in Keys(entries, ListedName) ==> Selected(entries, target) == []
    decreases |entries|
  {
    if entries != [] {
      AtMostOneNamed(entries[1..], target);
      assert Keys(entries[1..], ListedName) <= Keys(entries, ListedName) by {
        forall n | n in Keys(entries[1..], ListedName) ensures n in Keys(entries, ListedName) {
          var k :| 0 <= k < |entries[1..]| && entries[1..][k].0 == n;
          assert entries[k + 1].0 == n;
        }
      }
      if entries[0].0 == target {
        assert target !in Keys(entries[1..], ListedName);
      }
    }
  }

  /** `handle_apply`'s `enabled`: the one asked for, else the recommended server's default. */
  function ApplyEnabled(requested: Option<bool>, defaultEnabled: bool): (enabled: bool)
    ensures requested.Some? ==> enabled == requested.value
    ensures requested.None? ==> enabled == defaultEnabled
  {
    requested.GetOr(defaultEnabled)
  }

  /** `status_label`. */
  function StatusLabel(status: SyncStatus): (shown: string)
    ensures status == Updated ==> shown == "업데이트"
    ensures status == Skipped ==> shown == "동일"
    ensures status == Failed ==> shown == "실패"
  {
    match status
    case Updated => "업데이트"
    case Skipped => "동일"
    case Failed => "실패"
  }

  /** Different outcomes are shown with different labels. */
  lemma StatusLabelInjective(a: SyncStatus, b: SyncStatus)
    ensures StatusLabel(a) == StatusLabel(b) ==> a == b
  {
    if a != b {
      assert StatusLabel(a)[0] != StatusLabel(b)[0];
    }
  }

  // ---------------------------------------------------------------------
  // commands

  function ToolNotFound(agent: string): string {
    "'" + agent + "' 이름의 도구를 찾을 수 없습니다."
  }

  /** The registry path of a registered tool. */
  function PathOf(db: Database, name: string): string
    reads db`tools
    requires name in db.tools
  {
    db.tools[name].configPath
  }

  /** The tool is registered and its file reads as settings. */
  predicate Readable(db: Database, fs: FileSystem, name: string)
    reads db, fs
  {
    name in db.tools && fs.ReadSettings(PathOf(db, name)).Ok?
  }

  /** `c` is the configuration `build_tool_configuration` gives for its tool. */
  predicate Loaded(db: Database, fs: FileSystem, c: ToolConfiguration)
    reads db, fs
  {
    Readable(db, fs, c.name) &&
    c == NewToolConfiguration(c.name, PathOf(db, c.name), fs.ReadSettings(PathOf(db, c.name)).value)
  }

  /** What the loading loop keeps after the first `i` registry entries. */
  ghost predicate Loading(db: Database, fs: FileSystem, tools: seq<ToolConfiguration>, entries: seq<(string, string)>, i: nat)
    reads db, fs
  {
    && i <= |entries|
    && (forall k :: 0 <= k < |tools| ==> Loaded(db, fs, tools[k]))
    && (forall k :: 0 <= k < i && Readable(db, fs, entries[k].0) ==>
          exists j :: 0 <= j < |tools| && tools[j].name == entries[k].0)
    && (forall j, k :: 0 <= j < |tools| && i <= k < |entries| ==> LexLt(tools[j].name, entries[k].0))
    && (forall j, k :: 0 <= j < k < |tools| ==> LexLt(tools[j].name, tools[k].name))
  }

  lemma LoadStep(db: Database, fs: FileSystem, tools: seq<ToolConfiguration>, entries: seq<(string, string)>, i: nat)
    requires Loading(db, fs, tools, entries, i) && i < |entries|
    requires entries[i].0 in db.tools && entries[i].1 == PathOf(db, entries[i].0)
    requires forall j, k :: 0 <= j < k < |entries| ==> LexLt(entries[j].0, entries[k].0)
    ensures var (name, path) := entries[i];
      Loading(db, fs, if fs.ReadSettings(path).Ok?
                      then tools + [NewToolConfiguration(name, path, fs.ReadSettings(path).value)]
                      else tools, entries, i + 1)
  {
    var (name, path) := entries[i];
    if fs.ReadSettings(path).Ok? {
      var tools' := tools + [NewToolConfiguration(name, path, fs.ReadSettings(path).value)];
      assert tools'[|tools|].name == name;
      forall k | 0 <= k < i + 1 && Readable(db, fs, entries[k].0)
        ensures exists j :: 0 <= j < |tools'| && tools'[j].name == entries[k].0
      {
        if k < i {
          var j :| 0 <= j < |tools| && tools[j].name == entries[k].0;
          assert tools'[j] == tools[j];
        }
      }
    }
  }

  /** `load_tool_configs` (for `list`): the registered tools whose file reads
    * as settings, by ascending name; a tool whose file does not read is
    * skipped, not an error. */
  method LoadToolConfigs(db: Database, fs: FileSystem) returns (r: Result<seq<ToolConfiguration>, CliError>)
    ensures r.Ok? <==> !db.failing
    ensures r.Err? ==> r.error == Backend(Database)
    ensures r.Ok? ==> forall i :: 0 <= i < |r.value| ==> Loaded(db, fs, r.value[i])
    ensures r.Ok? ==> forall n :: Readable(db, fs, n) ==> exists i :: 0 <= i < |r.value| && r.value[i].name == n
    ensures r.Ok? ==> forall i, j :: 0 <= i < j < |r.value| ==> LexLt(r.value[i].name, r.value[j].name)
  {
    var listed := db.ListTools();
    if listed.Err? {
      return Err(Backend(listed.error));
    }
    var entries := listed.value;
    var tools: seq<ToolConfiguration> := [];
    for i := 0 to |entries|
      invariant Loading(db, fs, tools, entries, i)
    {
      LoadStep(db, fs, tools, entries, i);
      var (name, path) := entries[i];
      var settings := fs.ReadSettings(path);
      if settings.Ok? {
        tools := tools + [NewToolConfiguration(name, path, settings.value)];
      }
    }
    forall n | Readable(db, fs, n) ensures exists i :: 0 <= i < |tools| && tools[i].name == n {
      assert n in Keys(entries, ListedName);
      var k :| 0 <= k < |entries| && entries[k].0 == n;
    }
    return Ok(tools);
  }

  /** What syncing the registry entry `entry` against `master` leaves,
    * starting from the files `before` and the history `history0`: a file
    * that does not read is reported and nothing changes; otherwise
    * `sync_tool` runs on the settings it held. */
  ghost predicate EntrySynced(db: Database, fs: FileSystem, before: map<string, FileContent>, history0: seq<HistoryRow>,
                              entry: (string, string), master: McpSettings, now: Timestamp, r: Result<SyncSummary, CliError>)
    reads db, fs
  {
    var read := ReadFile(before, entry.1);
    if read.Err? then
      r == Err(Backend(read.error)) && db.history == history0 && fs.files == before
    else
      var current := read.value;
      && fs.files == SyncedFiles(fs, before, entry.1, master, current)
      && (r.Ok? <==> !db.failing && (current == master || fs.Writable(entry.1)))
      && (r.Err? ==> db.history == history0)
      && (r.Err? ==> r.error == Backend(if current != master && !fs.Writable(entry.1) then Io else Database))
      && (r.Ok? ==> db.history == history0 + [EncodeRow(r.value)])
      && (r.Ok? ==> r.value.tool == entry.0 && Recorded(r.value, now))
      && (r.Ok? ==> (r.value.status == Skipped <==> current == master))
  }

  /** What syncing the registered tool `agent` leaves: an unknown name is
    * reported and nothing changes; otherwise its registry entry is synced. */
  ghost predicate AgentSynced(db: Database, fs: FileSystem, before: map<string, FileContent>, history0: seq<HistoryRow>,
                              agent: string, master: McpSettings, now: Timestamp, r: Result<SyncSummary, CliError>)
    reads db, fs
  {
    if agent !in db.tools then
      r == Err(Message(ToolNotFound(agent))) && db.history == history0 && fs.files == before
    else
      EntrySynced(db, fs, before, history0, (agent, PathOf(db, agent)), master, now, r)
  }

  /** `sync_tool_for_agent`: finds the registered tool named `agent`, reads
    * its file and syncs it against `master`. */
  method SyncToolForAgent(db: Database, fs: FileSystem, agent: string, master: McpSettings, now: Timestamp)
    returns (r: Result<SyncSummary, CliError>)
    modifies db`history, fs`files
    ensures db.failing ==> r == Err(Backend(Database)) && db.history == old(db.history) && fs.files == old(fs.files)
    ensures !db.failing ==> AgentSynced(db, fs, old(fs.files), old(db.history), agent, master, now, r)
  {
    var listed := db.ListTools();
    if listed.Err? {
      return Err(Backend(listed.error));
    }
    var entries := listed.value;
    var i := 0;
    while i < |entries| && entries[i].0 != agent
      invariant 0 <= i <= |entries|
      invariant forall j :: 0 <= j < i ==> entries[j].0 != agent
    {
      i := i + 1;
    }
    if i == |entries| {
      assert agent !in Keys(entries, ListedName);
      return Err(Message(ToolNotFound(agent)));
    }
    r := SyncEntry(db, fs, entries[i], master, now);
  }

  /** The tool a summary reports on. */
  function SummaryTool(s: SyncSummary): string { s.tool }

  /** The rows the history gains for the given outcomes, in order. */
  function Rows(summaries: seq<SyncSummary>): (rows: seq<HistoryRow>)
    ensures |rows| == |summaries|
    ensures forall i :: 0 <= i < |summaries| ==> DecodeRow(rows[i]) == summaries[i]
  {
    if summaries == [] then []
    else
      RowRoundTrip(summaries[0]);
      [EncodeRow(summaries[0])] + Rows(summaries[1..])
  }

  lemma {:induction false} RowsSnoc(summaries: seq<SyncSummary>, s: SyncSummary)
    ensures Rows(summaries + [s]) == Rows(summaries) + [EncodeRow(s)]
    decreases |summaries|
  {
    if summaries == [] {
      assert [] + [s] == [s];
      assert [s][1..] == [];
    } else {
      assert (summaries + [s])[1..] == summaries[1..] + [s];
      RowsSnoc(summaries[1..], s);
    }
  }

  /** `entries` lists the chosen tools, each with its registered path, by
    * strictly ascending name. */
  ghost predicate IsSelection(db: Database, agent: Option<string>, entries: seq<(string, string)>)
    reads db`tools
  {
    && Keys(entries, ListedName) == Chosen(db, agent)
    && (forall i :: 0 <= i < |entries| ==> entries[i].0 in db.tools && entries[i].1 == PathOf(db, entries[i].0))
    && (forall i, j :: 0 <= i < j < |entries| ==> LexLt(entries[i].0, entries[j].0))
  }

  /** The registry entries `handle_sync` works through: all of them, or
    * with `--agent` those of that name, ascending by name, each with its
    * registered path. */
  method SelectTools(db: Database, agent: Option<string>) returns (r: Result<seq<(string, string)>, CliError>)
    ensures r.Ok? <==> !db.failing
    ensures r.Err? ==> r.error == Backend(Database)
    ensures r.Ok? ==> Keys(r.value, ListedName) == if agent.None? then db.tools.Keys else db.tools.Keys * {agent.value}
    ensures r.Ok? ==> forall i :: 0 <= i < |r.value| ==>
      r.value[i].0 in db.tools && r.value[i].1 == PathOf(db, r.value[i].0)
    ensures r.Ok? ==> forall i, j :: 0 <= i < j < |r.value| ==> LexLt(r.value[i].0, r.value[j].0)
    ensures r.Ok? ==> IsSelection(db, agent, r.value)
  {
    var listed := db.ListTools();
    if listed.Err? {
      return Err(Backend(listed.error));
    }
    var all := listed.value;
    var entries := RetainAgent(all, agent);
    SelectionShape(all, agent, db.tools);
    return Ok(entries);
  }

  /** Selecting from a listing of the registry gives the chosen names, each
    * with its registered path, still in ascending order. */
  lemma SelectionShape(all: seq<(string, string)>, agent: Option<string>, tools: map<string, ToolRow>)
    requires Keys(all, ListedName) == tools.Keys
    requires forall i :: 0 <= i < |all| ==> all[i].0 in tools && all[i].1 == tools[all[i].0].configPath
    requires forall i, j :: 0 <= i < j < |all| ==> LexLt(all[i].0, all[j].0)
    ensures var entries := if agent.None? then all else Selected(all, agent.value);
      && Keys(entries, ListedName) == (if agent.None? then tools.Keys else tools.Keys * {agent.value})
      && (forall i :: 0 <= i < |entries| ==> entries[i].0 in tools && entries[i].1 == tools[entries[i].0].configPath)
      && (forall i, j :: 0 <= i < j < |entries| ==> LexLt(entries[i].0, entries[j].0))
  {
    if agent.Some? {
      var target := agent.value;
      var entries := Selected(all, target);
      SelectedEntries(all, target);
      OrderKept(all, target);
      forall n | n in tools.Keys * {target} ensures n in Keys(entries, ListedName) {
        var k :| 0 <= k < |all| && all[k].0 == n;
        assert all[k] in entries;
        var m :| 0 <= m < |entries| && entries[m] == all[k];
      }
      forall n | n in Keys(entries, ListedName) ensures n in tools.Keys * {target} {
        var m :| 0 <= m < |entries| && entries[m].0 == n;
        assert entries[m] in all;
      }
      forall i | 0 <= i < |entries| ensures entries[i].0 in tools && entries[i].1 == tools[entries[i].0].configPath {
        assert entries[i] in all;
      }
    }
  }

  /** The registered tools `sync` works on: all of them, or with `--agent`
    * those of that name. */
  function Chosen(db: Database, agent: Option<string>): set<string>
    reads db`tools
  {
    if agent.None? then db.tools.Keys else db.tools.Keys * {agent.value}
  }

  /** No two registered tools share a configuration file. */
  predicate RegistryPathsDistinct(db: Database)
    reads db`tools
  {
    forall a, b :: a in db.tools && b in db.tools && a != b ==> PathOf(db, a) != PathOf(db, b)
  }

  /** After a run over the tools `chosen`, reported as `summaries`: every
    * chosen tool's file held settings and now holds them unchanged when
    * they equalled the master and the merge otherwise; each outcome is
    * Skipped exactly when they equalled the master; no other file changed. */
  ghost predicate ToolsSynced(db: Database, before: map<string, FileContent>, after: map<string, FileContent>,
                              chosen: set<string>, summaries: seq<SyncSummary>, master: McpSettings)
    reads db`tools
  {
    && (forall n :: n in chosen ==>
          && n in db.tools
          && var p := PathOf(db, n);
             var read := ReadFile(before, p);
             && read.Ok? && p in after
             && after[p] == if read.value == master then before[p] else Json(EncodeSettings(Merged(master, read.value))))
    && (forall k :: 0 <= k < |summaries| ==>
          && summaries[k].tool in db.tools
          && var read := ReadFile(before, PathOf(db, summaries[k].tool));
             read.Ok? && (summaries[k].status == Skipped <==> read.value == master))
    && Unchanged(before, after, PathsOf(db, chosen))
  }

  /** The files of the registered tools among `names`. */
  function PathsOf(db: Database, names: set<string>): set<string>
    reads db`tools
  {
    set n | n in names && n in db.tools :: PathOf(db, n)
  }

  /** `handle_sync`: makes sure a master exists, then syncs every registered
    * tool (or, with `--agent`, only the one of that name) against it. */
  method HandleSync(db: Database, fs: FileSystem, agent: Option<string>, now: Timestamp)
    returns (r: Result<seq<SyncSummary>, CliError>)
    modifies db`master, db`history, fs`files
    ensures db.failing ==>
      && r == Err(Backend(Database)) && db.master == old(db.master)
      && db.history == old(db.history) && fs.files == old(fs.files)
    ensures !db.failing ==> db.master.Some? && (old(db.master).Some? ==> db.master == old(db.master))
    ensures !db.failing && old(db.master).None? ==> db.master == Some(MasterRow(DefaultMaster(), now))
    ensures r.Ok? ==> db.history == old(db.history) + Rows(r.value)
    ensures r.Ok? ==> Covers(r.value, Chosen(db, agent), now)
    ensures !db.failing && agent.Some? && agent.value !in db.tools ==>
      r == Ok([]) && db.history == old(db.history) && fs.files == old(fs.files)
    ensures !db.failing && RegistryPathsDistinct(db) ==>
      db.master.Some? &&
      (r.Ok? <==> forall n :: n in Chosen(db, agent) ==>
                    Syncable(fs, old(fs.files), PathOf(db, n), db.master.value.content))
    ensures r.Ok? && RegistryPathsDistinct(db) ==>
      db.master.Some? && ToolsSynced(db, old(fs.files), fs.files, Chosen(db, agent), r.value, db.master.value.content)
    ensures r.Err? && !db.failing ==>
      exists s, n :: db.history == old(db.history) + Rows(s) && SyncedUpTo(Chosen(db, agent), s, n, now)
  {
    var master := db.EnsureMasterConfig(now);
    if master.Err? {
      return Err(Backend(master.error));
    }
    r := SyncChosen(db, fs, agent, master.value.settings, now);
  }

  /** The rest of `handle_sync`: lists the registry, keeps the chosen tools
    * and syncs them in name order against `master`, stopping at the first
    * error. Each synced tool adds its outcome to the history; with no tool
    * chosen nothing is synced. When no two tools share a file, the run
    * succeeds exactly when every chosen file reads and is either up to date
    * or writable, and a successful run leaves each chosen file merged or
    * unchanged and every other file as it was. */
  method SyncChosen(db: Database, fs: FileSystem, agent: Option<string>, master: McpSettings, now: Timestamp)
    returns (r: Result<seq<SyncSummary>, CliError>)
    modifies db`history, fs`files
    ensures db.failing ==> r == Err(Backend(Database)) && db.history == old(db.history) && fs.files == old(fs.files)
    ensures r.Ok? ==> db.history == old(db.history) + Rows(r.value)
    ensures r.Ok? ==> Covers(r.value, Chosen(db, agent), now)
    ensures !db.failing && agent.Some? && agent.value !in db.tools ==>
      r == Ok([]) && db.history == old(db.history) && fs.files == old(fs.files)
    ensures !db.failing && RegistryPathsDistinct(db) ==>
      (r.Ok? <==> forall n :: n in Chosen(db, agent) ==> Syncable(fs, old(fs.files), PathOf(db, n), master))
    ensures r.Ok? && RegistryPathsDistinct(db) ==>
      ToolsSynced(db, old(fs.files), fs.files, Chosen(db, agent), r.value, master)
    ensures r.Err? && !db.failing ==>
      exists s, n :: db.history == old(db.history) + Rows(s) && SyncedUpTo(Chosen(db, agent), s, n, now)
  {
    var selected := SelectTools(db, agent);
    if selected.Err? {
      return Err(selected.error);
    }
    r := SyncSelected(db, fs, agent, selected.value, master, now);
  }

  /** The loop of `handle_sync` over the selected registry entries, with a
    * store that answers: its outcome stated per chosen tool. */
  method SyncSelected(db: Database, fs: FileSystem, agent: Option<string>, entries: seq<(string, string)>,
                      master: McpSettings, now: Timestamp)
    returns (r: Result<seq<SyncSummary>, CliError>)
    requires !db.failing && IsSelection(db, agent, entries)
    modifies db`history, fs`files
    ensures r.Ok? ==> db.history == old(db.history) + Rows(r.value)
    ensures r.Ok? ==> Covers(r.value, Chosen(db, agent), now)
    ensures Chosen(db, agent) == {} ==> r == Ok([]) && db.history == old(db.history) && fs.files == old(fs.files)
    ensures RegistryPathsDistinct(db) ==>
      (r.Ok? <==> forall n :: n in Chosen(db, agent) ==> Syncable(fs, old(fs.files), PathOf(db, n), master))
    ensures r.Ok? && RegistryPathsDistinct(db) ==>
      ToolsSynced(db, old(fs.files), fs.files, Chosen(db, agent), r.value, master)
    ensures r.Err? ==>
      exists s, n :: db.history == old(db.history) + Rows(s) && SyncedUpTo(Chosen(db, agent), s, n, now)
  {
    r := SyncEntries(db, fs, entries, master, now);
    SelectionSynced(db, fs, old(fs.files), fs.files, old(db.history), db.history, entries, agent, r, master, now);
  }


  /** What a run over a selection of the registry says about the chosen
    * tools, whatever the run's outcome. */
  lemma SelectionSynced(db: Database, fs: FileSystem, before: map<string, FileContent>, after: map<string, FileContent>,
                        history0: seq<HistoryRow>, history: seq<HistoryRow>, entries: seq<(string, string)>, agent: Option<string>, r: Result<seq<SyncSummary>, CliError>,
                        master: McpSettings, now: Timestamp)
    requires !db.failing && IsSelection(db, agent, entries)
    requires r.Ok? ==> Reports(r.value, entries, now)
    requires entries == [] ==> r == Ok([]) && after == before
    requires PathsDistinct(entries) ==> (r.Ok? <==> RunSyncable(db, fs, before, entries, master))
    requires PathsDistinct(entries) && r.Ok? ==> FilesSynced(before, after, entries, r.value, master)
    requires r.Err? ==> exists s :: |s| < |entries| && Reports(s, entries[..|s|], now) && history == history0 + Rows(s)
    ensures r.Ok? ==> Covers(r.value, Chosen(db, agent), now)
    ensures Chosen(db, agent) == {} ==> r == Ok([]) && after == before
    ensures RegistryPathsDistinct(db) ==>
      (r.Ok? <==> forall n :: n in Chosen(db, agent) ==> Syncable(fs, before, PathOf(db, n), master))
    ensures r.Ok? && RegistryPathsDistinct(db) ==> ToolsSynced(db, before, after, Chosen(db, agent), r.value, master)
    ensures r.Err? ==> exists s, n :: history == history0 + Rows(s) && SyncedUpTo(Chosen(db, agent), s, n, now)
  {
    if r.Ok? {
      ReportsCover(r.value, entries, now);
    } else {
      var s :| |s| < |entries| && Reports(s, entries[..|s|], now) && history == history0 + Rows(s);
      StoppedRun(s, entries, now);
      assert SyncedUpTo(Chosen(db, agent), s, entries[|s|].0, now);
    }
    NoNamesNoEntries(entries);
    if RegistryPathsDistinct(db) {
      EntriesOfRegistry(db, fs, before, entries, agent, master);
      if r.Ok? {
        EntriesSyncedAsTools(db, before, after, entries, agent, r.value, master, now);
      }
    }
  }

  /** An outcome `sync_tool` gives at `now`: Updated or Skipped, never
    * Failed, with the message that goes with its status. */
  predicate Recorded(s: SyncSummary, now: Timestamp) {
    s.status != Failed && s.syncedAt == now && s.message == OutcomeMessage(s.status)
  }

  /** The outcomes of a run that stopped at the chosen tool `n`: one for
    * each chosen tool ordered before `n`, ascending, none Failed. */
  ghost predicate SyncedUpTo(chosen: set<string>, s: seq<SyncSummary>, n: string, now: Timestamp) {
    n in chosen && Covers(s, (set m | m in chosen && LexLt(m, n)), now)
  }

  /** Outcomes of this run for exactly the `tools`, one each, by ascending
    * name. */
  ghost predicate Covers(s: seq<SyncSummary>, tools: set<string>, now: Timestamp) {
    && Keys(s, SummaryTool) == tools
    && (forall i, j :: 0 <= i < j < |s| ==> LexLt(s[i].tool, s[j].tool))
    && (forall i :: 0 <= i < |s| ==> Recorded(s[i], now))
  }

  /** Outcomes reporting on a proper prefix of ascending entries cover
    * exactly the entries' names ordered before the first one left. */
  lemma StoppedRun(s: seq<SyncSummary>, entries: seq<(string, string)>, now: Timestamp)
    requires |s| < |entries| && Reports(s, entries[..|s|], now)
    requires forall i, j :: 0 <= i < j < |entries| ==> LexLt(entries[i].0, entries[j].0)
    ensures SyncedUpTo(Keys(entries, ListedName), s, entries[|s|].0, now)
  {
    var k := |s|;
    var n := entries[k].0;
    ReportsCover(s, entries[..k], now);
    assert n in Keys(entries, ListedName);
    forall m | m in Keys(entries, ListedName) && LexLt(m, n)
      ensures m in Keys(entries[..k], ListedName)
    {
      var j :| 0 <= j < |entries| && entries[j].0 == m;
      if j > k {
        LexLeAntisymmetric(m, n);
      }
      assert entries[..k][j] == entries[j];
    }
    forall m | m in Keys(entries[..k], ListedName)
      ensures m in Keys(entries, ListedName) && LexLt(m, n)
    {
      var j :| 0 <= j < k && entries[..k][j].0 == m;
      assert entries[j].0 == m;
    }
  }

  /** Outcomes reporting on the entries name exactly the entries' tools, in
    * the entries' order. */
  lemma ReportsCover(summaries: seq<SyncSummary>, entries: seq<(string, string)>, now: Timestamp)
    requires Reports(summaries, entries, now)
    ensures Keys(summaries, SummaryTool) == Keys(entries, ListedName)
    ensures (forall i, j :: 0 <= i < j < |entries| ==> LexLt(entries[i].0, entries[j].0)) ==>
      forall i, j :: 0 <= i < j < |summaries| ==> LexLt(summaries[i].tool, summaries[j].tool)
  {
    forall n | n in Keys(entries, ListedName) ensures n in Keys(summaries, SummaryTool) {
      var m :| 0 <= m < |entries| && entries[m].0 == n;
      assert summaries[m].tool == n;
    }
  }

  lemma NoNamesNoEntries(entries: seq<(string, string)>)
    ensures Keys(entries, ListedName) == {} ==> entries == []
  {
    if entries != [] {
      assert entries[0].0 in Keys(entries, ListedName);
    }
  }

  /** The summaries report on the entries' tools, one each and in order, all
    * from this run and none Failed. */
  predicate Reports(summaries: seq<SyncSummary>, entries: seq<(string, string)>, now: Timestamp) {
    && |summaries| == |entries|
    && forall k :: 0 <= k < |summaries| ==>
         summaries[k].tool == entries[k].0 && Recorded(summaries[k], now)
  }

  lemma ReportsStep(summaries: seq<SyncSummary>, entries: seq<(string, string)>, i: nat, s: SyncSummary, now: Timestamp)
    requires i < |entries| && Reports(summaries, entries[..i], now)
    requires s.tool == entries[i].0 && Recorded(s, now)
    ensures Reports(summaries + [s], entries[..i + 1], now)
  {
    assert entries[..i + 1] == entries[..i] + [entries[i]];
  }

  /** A synced entry extends the run's report and history by its outcome. */
  lemma EntryReported(db: Database, fs: FileSystem, current: map<string, FileContent>, history0: seq<HistoryRow>,
                      base: seq<HistoryRow>, entries: seq<(string, string)>, i: nat, summaries: seq<SyncSummary>,
                      master: McpSettings, now: Timestamp, r: Result<SyncSummary, CliError>)
    requires i < |entries| && EntrySynced(db, fs, current, history0, entries[i], master, now, r)
    requires Reports(summaries, entries[..i], now) && history0 == base + Rows(summaries)
    ensures r.Ok? ==> Reports(summaries + [r.value], entries[..i + 1], now)
    ensures r.Ok? ==> db.history == base + Rows(summaries + [r.value])
    ensures r.Err? ==> db.history == base + Rows(summaries)
  {
    if r.Ok? {
      RowsSnoc(summaries, r.value);
      ReportsStep(summaries, entries, i, r.value, now);
    }
  }

  /** `build_tool_configuration` then `sync_tool` for one registry entry. */
  method SyncEntry(db: Database, fs: FileSystem, entry: (string, string), master: McpSettings, now: Timestamp)
    returns (r: Result<SyncSummary, CliError>)
    modifies db`history, fs`files
    ensures EntrySynced(db, fs, old(fs.files), old(db.history), entry, master, now, r)
  {
    var (name, path) := entry;
    var settings := fs.ReadSettings(path);
    if settings.Err? {
      return Err(Backend(settings.error));
    }
    var config := NewToolConfiguration(name, path, settings.value);
    var synced := SyncTool(config, master, db, fs, now);
    if synced.Err? {
      return Err(Backend(synced.error));
    }
    return Ok(synced.value);
  }

  /** No two entries name the same file. */
  predicate PathsDistinct(entries: seq<(string, string)>) {
    forall i, j :: 0 <= i < j < |entries| ==> entries[i].1 != entries[j].1
  }

  /** The file at `path` reads, and syncing it against `master` does not
    * fail on the file: it already equals the master or can be written. */
  ghost predicate Syncable(fs: FileSystem, before: map<string, FileContent>, path: string, master: McpSettings)
    reads fs`unwritable, fs`truncating
  {
    var read := ReadFile(before, path);
    read.Ok? && (read.value == master || fs.Writable(path))
  }

  /** A run over `entries` cannot fail: every file is syncable and, unless
    * there is nothing to do, the store records the outcomes. */
  ghost predicate RunSyncable(db: Database, fs: FileSystem, before: map<string, FileContent>,
                              entries: seq<(string, string)>, master: McpSettings)
    reads db`failing, fs`unwritable, fs`truncating
  {
    (entries == [] || !db.failing) &&
    forall k :: 0 <= k < |entries| ==> Syncable(fs, before, entries[k].1, master)
  }

  /** After a run over `entries` reported as `summaries`: each entry's file
    * held settings and now holds them unchanged when they equalled the
    * master and the merge otherwise; each outcome is Skipped exactly when
    * they equalled the master; no other file changed. */
  ghost predicate FilesSynced(before: map<string, FileContent>, after: map<string, FileContent>,
                              entries: seq<(string, string)>, summaries: seq<SyncSummary>, master: McpSettings)
  {
    EntriesSynced(before, after, entries, summaries, master) && Unchanged(before, after, Keys(entries, ListedPath))
  }

  ghost predicate EntriesSynced(before: map<string, FileContent>, after: map<string, FileContent>,
                                entries: seq<(string, string)>, summaries: seq<SyncSummary>, master: McpSettings)
  {
    && |summaries| == |entries|
    && forall k :: 0 <= k < |entries| ==> EntrySyncedFile(before, after, entries[k].1, summaries[k], master)
  }

  /** The file at `path` held settings, the outcome is Skipped exactly when
    * they equalled the master, and the file now holds them unchanged or the
    * merge. */
  ghost predicate EntrySyncedFile(before: map<string, FileContent>, after: map<string, FileContent>,
                                  path: string, summary: SyncSummary, master: McpSettings)
  {
    var read := ReadFile(before, path);
    && read.Ok? && path in after
    && (summary.status == Skipped <==> read.value == master)
    && after[path] == if read.value == master then before[path] else Json(EncodeSettings(Merged(master, read.value)))
  }

  /** Every file outside `touched` is as it was. */
  ghost predicate Unchanged(before: map<string, FileContent>, after: map<string, FileContent>, touched: set<string>) {
    forall p :: p !in touched ==> (p in after <==> p in before) && (p in after ==> after[p] == before[p])
  }

  /** A file no earlier entry names is still as it was before the run. */
  lemma UntouchedRead(before: map<string, FileContent>, current: map<string, FileContent>,
                      entries: seq<(string, string)>, summaries: seq<SyncSummary>, master: McpSettings, i: nat)
    requires i < |entries| && PathsDistinct(entries)
    requires FilesSynced(before, current, entries[..i], summaries, master)
    ensures var p := entries[i].1; (p in current <==> p in before) && (p in current ==> current[p] == before[p])
    ensures ReadFile(current, entries[i].1) == ReadFile(before, entries[i].1)
  {
    assert entries[i].1 !in Keys(entries[..i], ListedPath);
  }

  /** Syncing one more entry extends the run's effect by that entry. */
  lemma FilesSyncedStep(before: map<string, FileContent>, current: map<string, FileContent>, after: map<string, FileContent>,
                        entries: seq<(string, string)>, summaries: seq<SyncSummary>, s: SyncSummary, master: McpSettings, i: nat)
    requires i < |entries| && PathsDistinct(entries)
    requires FilesSynced(before, current, entries[..i], summaries, master)
    requires var read := ReadFile(before, entries[i].1);
      && read.Ok? && (s.status == Skipped <==> read.value == master)
      && after == if read.value == master then current
                  else current[entries[i].1 := Json(EncodeSettings(Merged(master, read.value)))]
    ensures FilesSynced(before, after, entries[..i + 1], summaries + [s], master)
  {
    var p := entries[i].1;
    UntouchedRead(before, current, entries, summaries, master, i);
    assert EntrySyncedFile(before, after, p, s, master);
    EarlierEntriesKept(before, current, after, entries, summaries, master, i);
    assert entries[..i + 1] == entries[..i] + [entries[i]];
    EntriesSyncedSnoc(before, after, entries[..i], summaries, entries[i], s, master);
    KeysOfConcat(entries[..i], [entries[i]], ListedPath);
    assert Keys([entries[i]], ListedPath) == {p} by { assert [entries[i]][0] == entries[i]; }
    UnchangedStep(before, current, after, Keys(entries[..i], ListedPath), p);
  }

  lemma EntriesSyncedSnoc(before: map<string, FileContent>, after: map<string, FileContent>,
                          done: seq<(string, string)>, summaries: seq<SyncSummary>,
                          e: (string, string), s: SyncSummary, master: McpSettings)
    requires EntriesSynced(before, after, done, summaries, master)
    requires EntrySyncedFile(before, after, e.1, s, master)
    ensures EntriesSynced(before, after, done + [e], summaries + [s], master)
  {
    forall k | 0 <= k < |done| + 1
      ensures EntrySyncedFile(before, after, (done + [e])[k].1, (summaries + [s])[k], master)
    {
      if k < |done| {
        assert (done + [e])[k] == done[k] && (summaries + [s])[k] == summaries[k];
      }
    }
  }

  /** Changing at most the file `p` leaves every file outside `touched`
    * and `p` as it was. */
  lemma UnchangedStep(before: map<string, FileContent>, current: map<string, FileContent>, after: map<string, FileContent>,
                      touched: set<string>, p: string)
    requires Unchanged(before, current, touched)
    requires after == current || (p in after && after == current[p := after[p]])
    ensures Unchanged(before, after, touched + {p})
  {
  }

  /** Writing the file of entry `i` leaves the earlier entries' files alone. */
  lemma EarlierEntriesKept(before: map<string, FileContent>, current: map<string, FileContent>, after: map<string, FileContent>,
                           entries: seq<(string, string)>, summaries: seq<SyncSummary>, master: McpSettings, i: nat)
    requires i < |entries| && PathsDistinct(entries)
    requires EntriesSynced(before, current, entries[..i], summaries, master)
    requires after == current || (entries[i].1 in after && after == current[entries[i].1 := after[entries[i].1]])
    ensures EntriesSynced(before, after, entries[..i], summaries, master)
  {
    forall k | 0 <= k < i
      ensures EntrySyncedFile(before, after, entries[..i][k].1, summaries[k], master)
    {
      assert entries[..i][k] == entries[k];
      assert entries[k].1 != entries[i].1;
      assert EntrySyncedFile(before, current, entries[k].1, summaries[k], master);
    }
  }

  /** What `handle_sync`'s loop keeps after the first `i` entries, when no
    * two entries share a file: their files are synced from `before` into
    * `files`, each of them was syncable, and the store has worked. */
  ghost predicate Progress(db: Database, fs: FileSystem, before: map<string, FileContent>, files: map<string, FileContent>,
                           entries: seq<(string, string)>, i: nat, summaries: seq<SyncSummary>, master: McpSettings)
    reads db`failing, fs`unwritable, fs`truncating
  {
    && i <= |entries|
    && FilesSynced(before, files, entries[..i], summaries, master)
    && (forall k :: 0 <= k < i ==> Syncable(fs, before, entries[k].1, master))
    && (i > 0 ==> !db.failing)
  }

  /** One more entry either extends the progress or shows that the run
    * could not have succeeded. */
  lemma RunStep(db: Database, fs: FileSystem, before: map<string, FileContent>, current: map<string, FileContent>,
                history0: seq<HistoryRow>, entries: seq<(string, string)>, i: nat, summaries: seq<SyncSummary>,
                master: McpSettings, now: Timestamp, r: Result<SyncSummary, CliError>)
    requires i < |entries| && PathsDistinct(entries)
    requires Progress(db, fs, before, current, entries, i, summaries, master)
    requires EntrySynced(db, fs, current, history0, entries[i], master, now, r)
    ensures r.Err? ==> !RunSyncable(db, fs, before, entries, master)
    ensures r.Ok? ==> Progress(db, fs, before, fs.files, entries, i + 1, summaries + [r.value], master)
  {
    UntouchedRead(before, current, entries, summaries, master, i);
    if r.Ok? {
      FilesSyncedStep(before, current, fs.files, entries, summaries, r.value, master, i);
    } else if !db.failing {
      assert !Syncable(fs, before, entries[i].1, master);
    }
  }

  /** Progress over every entry is the run's whole effect. */
  lemma ProgressDone(db: Database, fs: FileSystem, before: map<string, FileContent>, files: map<string, FileContent>,
                     entries: seq<(string, string)>, summaries: seq<SyncSummary>, master: McpSettings)
    requires Progress(db, fs, before, files, entries, |entries|, summaries, master)
    ensures RunSyncable(db, fs, before, entries, master)
    ensures FilesSynced(before, files, entries, summaries, master)
  {
    assert entries[..|entries|] == entries;
  }

  /** `handle_sync`'s loop: syncs each entry in turn against the master,
    * stopping at the first error. When no two entries share a file, the
    * run succeeds exactly when every file is syncable and the store works,
    * and a successful run leaves each file merged or unchanged. */
  method SyncEntries(db: Database, fs: FileSystem, entries: seq<(string, string)>, master: McpSettings, now: Timestamp)
    returns (r: Result<seq<SyncSummary>, CliError>)
    modifies db`history, fs`files
    ensures r.Ok? ==> Reports(r.value, entries, now) && db.history == old(db.history) + Rows(r.value)
    ensures entries == [] ==> r == Ok([]) && db.history == old(db.history) && fs.files == old(fs.files)
    ensures PathsDistinct(entries) ==> (r.Ok? <==> RunSyncable(db, fs, old(fs.files), entries, master))
    ensures PathsDistinct(entries) && r.Ok? ==> FilesSynced(old(fs.files), fs.files, entries, r.value, master)
    ensures r.Err? ==>
      exists s :: |s| < |entries| && Reports(s, entries[..|s|], now) && db.history == old(db.history) + Rows(s)
  {
    var summaries: seq<SyncSummary> := [];
    for i := 0 to |entries|
      invariant Reports(summaries, entries[..i], now)
      invariant db.history == old(db.history) + Rows(summaries)
      invariant i == 0 ==> fs.files == old(fs.files)
      invariant PathsDistinct(entries) ==> Progress(db, fs, old(fs.files), fs.files, entries, i, summaries, master)
    {
      ghost var current, history0 := fs.files, db.history;
      var synced := SyncEntry(db, fs, entries[i], master, now);
      if PathsDistinct(entries) {
        RunStep(db, fs, old(fs.files), current, history0, entries, i, summaries, master, now, synced);
      }
      EntryReported(db, fs, current, history0, old(db.history), entries, i, summaries, master, now, synced);
      if synced.Err? {
        assert |summaries| == i;
        return Err(synced.error);
      }
      summaries := summaries + [synced.value];
    }
    if PathsDistinct(entries) {
      ProgressDone(db, fs, old(fs.files), fs.files, entries, summaries, master);
    }
    assert entries[..|entries|] == entries;
    return Ok(summaries);
  }

  /** The entries `handle_sync` selects name the chosen tools with their
    * registered files; with distinct registry files no two entries share
    * one, and every entry syncable means every chosen tool syncable. */
  lemma EntriesOfRegistry(db: Database, fs: FileSystem, before: map<string, FileContent>,
                          entries: seq<(string, string)>, agent: Option<string>, master: McpSettings)
    requires RegistryPathsDistinct(db) && IsSelection(db, agent, entries)
    ensures PathsDistinct(entries)
    ensures !db.failing ==>
      (RunSyncable(db, fs, before, entries, master) <==>
       forall n :: n in Chosen(db, agent) ==> Syncable(fs, before, PathOf(db, n), master))
  {
  }

  /** A run's effect over the selected entries, stated per chosen tool. */
  lemma EntriesSyncedAsTools(db: Database, before: map<string, FileContent>, after: map<string, FileContent>,
                             entries: seq<(string, string)>, agent: Option<string>, summaries: seq<SyncSummary>,
                             master: McpSettings, now: Timestamp)
    requires IsSelection(db, agent, entries) && Reports(summaries, entries, now)
    requires FilesSynced(before, after, entries, summaries, master)
    ensures ToolsSynced(db, before, after, Chosen(db, agent), summaries, master)
  {
    assert Keys(entries, ListedPath) == PathsOf(db, Chosen(db, agent)) by {
      forall p | p in PathsOf(db, Chosen(db, agent)) ensures p in Keys(entries, ListedPath) {
        var n :| n in Chosen(db, agent) && n in db.tools && PathOf(db, n) == p;
        var k :| 0 <= k < |entries| && entries[k].0 == n;
      }
    }
  }

  /** Selecting by name keeps a strictly ascending listing ascending. */
  lemma {:induction false} OrderKept(entries: seq<(string, string)>, target: string)
    requires forall i, j :: 0 <= i < j < |entries| ==> LexLt(entries[i].0, entries[j].0)
    ensures forall i, j :: 0 <= i < j < |Selected(entries, target)| ==>
      LexLt(Selected(entries, target)[i].0, Selected(entries, target)[j].0)
  {
    AtMostOneNamed(entries, target);
  }

  /** `handle_feature_toggle`: resolves the flags before touching the store,
    * switches the server in the (possibly just initialised) master, stores
    * that master and syncs the named tool against it. */
  method HandleFeatureToggle(db: Database, fs: FileSystem, agent: string, key: string, on: bool, off: bool, now: Timestamp)
    returns (r: Result<SyncSummary, CliError>)
    modifies db`master, db`history, fs`files
    ensures on == off ==>
      r == Err(Message(if on then BOTH_FLAGS_ERROR else NO_FLAG_ERROR)) &&
      db.master == old(db.master) && db.history == old(db.history) && fs.files == old(fs.files)
    ensures db.failing ==>
      r.Err? && db.master == old(db.master) && db.history == old(db.history) && fs.files == old(fs.files)
    ensures on != off && db.failing ==> r == Err(Backend(Database))
    // an unknown server: only the master `ensure_master_config` may have stored
    ensures on != off && !db.failing ==>
      var base := if old(db.master).Some? then old(db.master).value.content else DefaultMaster();
      Toggled(base, key, on).Err? ==>
        && r == Err(Message(ServerNotFound(key)))
        && db.master == Some(if old(db.master).Some? then old(db.master).value else MasterRow(DefaultMaster(), now))
        && db.history == old(db.history) && fs.files == old(fs.files)
    // the toggled master is stored before the tool is synced, and stays
    // stored whatever the sync gives
    ensures on != off && !db.failing ==>
      var base := if old(db.master).Some? then old(db.master).value.content else DefaultMaster();
      Toggled(base, key, on).Ok? ==>
        && db.master == Some(MasterRow(Toggled(base, key, on).value, now))
        && AgentSynced(db, fs, old(fs.files), old(db.history), agent, Toggled(base, key, on).value, now, r)
  {
    var desired := ResolveToggle(on, off);
    if desired.Err? {
      return Err(Message(desired.error));
    }
    var current := db.EnsureMasterConfig(now);
    if current.Err? {
      return Err(Backend(current.error));
    }
    var toggled := SetServerEnabled(current.value.settings, key, desired.value);
    if toggled.Err? {
      return Err(toggled.error);
    }
    // The store answered the first statement, so it answers these too.
    var stored := db.UpsertMasterConfig(toggled.value, now);
    assert stored.Ok?;
    var refreshed := db.EnsureMasterConfig(now);
    assert refreshed.Ok?;
    r := SyncToolForAgent(db, fs, agent, refreshed.value.settings, now);
  }
}

=== FILE: config.dfy ===
/** The data model of the MCP configuration: server entries, per-project
  * overrides, the settings value that groups them, a tool's configuration,
  * and the outcome of one reconciliation. All of these are plain values;
  * equality on them is Dafny's structural equality, which is exactly the
  * derived, field-by-field and order-sensitive `PartialEq` of the source. */
module Config {
  import opened Wrappers
  import opened Errors

  /** An opaque instant, supplied by the caller (the source reads a UTC clock). */
  type Timestamp = int

  datatype McpServer = McpServer(
    id: string,
    name: string,
    description: Option<string>,
    endpoint: string,
    apiKey: Option<string>,
    enabled: bool)

  datatype ProjectOverride = ProjectOverride(
    project: string,
    serverId: string,
    lastSyncedAt: Option<Timestamp>)

  datatype McpSettings = McpSettings(
    servers: seq<McpServer>,
    projectOverrides: seq<ProjectOverride>)

  datatype ToolConfiguration = ToolConfiguration(
    name: string,
    version: Option<string>,
    configPath: string,
    settings: McpSettings)

  datatype SyncStatus = Updated | Skipped | Failed

  datatype SyncSummary = SyncSummary(
    tool: string,
    status: SyncStatus,
    message: string,
    syncedAt: Timestamp)

  datatype MasterConfigResponse = MasterConfigResponse(
    settings: McpSettings,
    updatedAt: Timestamp)

  /** A catalog entry of a recommended server, with the columns the store
    * keeps for it. */
  datatype RecommendedServer = RecommendedServer(
    id: string,
    name: string,
    description: Option<string>,
    endpoint: string,
    homepage: Option<string>,
    category: Option<string>,
    apiKeyRequired: bool,
    defaultEnabled: bool)

  /** The fallback server that a freshly initialised master holds. */
  function DefaultServer(): (s: McpServer)
    ensures s.id == "default" && s.name == "Default MCP Server"
    ensures s.description == Some("Fallback local MCP server")
    ensures s.endpoint == "http://localhost:3001"
    ensures s.apiKey == None && s.enabled
  {
    McpServer("default", "Default MCP Server", Some("Fallback local MCP server"),
              "http://localhost:3001", None, true)
  }

  /** `McpSettings::default()`: no servers and no overrides. */
  function EmptySettings(): (s: McpSettings)
    ensures |s.servers| == 0 && |s.projectOverrides| == 0
  {
    McpSettings([], [])
  }

  /** `ToolConfiguration::new`: keeps what it is given, knows no version. */
  function NewToolConfiguration(name: string, configPath: string, settings: McpSettings): (t: ToolConfiguration)
    ensures t.name == name && t.configPath == configPath && t.settings == settings
    ensures t.version == None
  {
    ToolConfiguration(name, None, configPath, settings)
  }

  /** Settings equality compares the two sequences position by position,
    * every field included: reordering, or a differing `apiKey` or `enabled`,
    * makes two settings unequal. */
  lemma {:induction false} SettingsEqualityIsPositional(a: McpSettings, b: McpSettings)
    ensures a == b <==>
      && |a.servers| == |b.servers|
      && |a.projectOverrides| == |b.projectOverrides|
      && (forall i :: 0 <= i < |a.servers| ==>
            && a.servers[i].id == b.servers[i].id
            && a.servers[i].name == b.servers[i].name
            && a.servers[i].description == b.servers[i].description
            && a.servers[i].endpoint == b.servers[i].endpoint
            && a.servers[i].apiKey == b.servers[i].apiKey
            && a.servers[i].enabled == b.servers[i].enabled)
      && (forall i :: 0 <= i < |a.projectOverrides| ==>
            a.projectOverrides[i] == b.projectOverrides[i])
  {
    if && |a.servers| == |b.servers|
       && |a.projectOverrides| == |b.projectOverrides|
       && (forall i :: 0 <= i < |a.servers| ==>
            && a.servers[i].id == b.servers[i].id
            && a.servers[i].name == b.servers[i].name
            && a.servers[i].description == b.servers[i].description
            && a.servers[i].endpoint == b.servers[i].endpoint
            && a.servers[i].apiKey == b.servers[i].apiKey
            && a.servers[i].enabled == b.servers[i].enabled)
       && (forall i :: 0 <= i < |a.projectOverrides| ==>
            a.projectOverrides[i] == b.projectOverrides[i])
    {
      assert a.servers == b.servers;
      assert a.projectOverrides == b.projectOverrides;
    }
  }

  // ---------------------------------------------------------------------
  // Field defaults when a settings file is read. A JSON object is modelled
  // by its fields, each present (`Some`) or absent (`None`); a JSON `null`
  // in an optional field reads like an absent one.

  datatype RawServer = RawServer(
    id: Option<string>,
    name: Option<string>,
    description: Option<string>,
    endpoint: Option<string>,
    apiKey: Option<string>,
    enabled: Option<bool>)

  datatype RawOverride = RawOverride(
    project: Option<string>,
    serverId: Option<string>,
    lastSyncedAt: Option<Timestamp>)

  datatype RawSettings = RawSettings(
    servers: Option<seq<RawServer>>,
    projectOverrides: Option<seq<RawOverride>>)

  /** A server object: `id`, `name` and `endpoint` are required, the two
    * optional strings default to none and `enabled` defaults to false. */
  function DecodeServer(r: RawServer): (res: Result<McpServer, BackendError>)
    ensures res.Ok? <==> r.id.Some? && r.name.Some? && r.endpoint.Some?
    ensures res.Err? ==> res.error == SerdeJson
    ensures res.Ok? ==>
      && res.value.id == r.id.value && res.value.name == r.name.value
      && res.value.endpoint == r.endpoint.value
      && res.value.description == r.description && res.value.apiKey == r.apiKey
      && res.value.enabled == (r.enabled == Some(true))
  {
    if r.id.None? || r.name.None? || r.endpoint.None? then Err(SerdeJson)
    else Ok(McpServer(r.id.value, r.name.value, r.description, r.endpoint.value,
                      r.apiKey, r.enabled.GetOr(false)))
  }

  function DecodeOverride(r: RawOverride): (res: Result<ProjectOverride, BackendError>)
    ensures res.Ok? <==> r.project.Some? && r.serverId.Some?
    ensures res.Ok? ==> res.value == ProjectOverride(r.project.value, r.serverId.value, r.lastSyncedAt)
  {
    if r.project.None? || r.serverId.None? then Err(SerdeJson)
    else Ok(ProjectOverride(r.project.value, r.serverId.value, r.lastSyncedAt))
  }

  /** A list of server objects decodes element by element and fails as a
    * whole when any element fails. */
  function DecodeServers(rs: seq<RawServer>): (res: Result<seq<McpServer>, BackendError>)
    ensures res.Ok? <==> forall i :: 0 <= i < |rs| ==> DecodeServer(rs[i]).Ok?
    ensures res.Ok? ==> |res.value| == |rs|
    ensures res.Ok? ==> forall i :: 0 <= i < |rs| ==> DecodeServer(rs[i]) == Ok(res.value[i])
  {
    if rs == [] then Ok([])
    else
      match DecodeServer(rs[0])
      case Err(e) => Err(e)
      case Ok(s) =>
        match DecodeServers(rs[1..])
        case Err(e) => Err(e)
        case Ok(rest) =>
          assert forall i :: 1 <= i < |rs| ==> rs[i] == rs[1..][i - 1];
          Ok([s] + rest)
  }

  function DecodeOverrides(rs: seq<RawOverride>): (res: Result<seq<ProjectOverride>, BackendError>)
    ensures res.Ok? <==> forall i :: 0 <= i < |rs| ==> DecodeOverride(rs[i]).Ok?
    ensures res.Ok? ==> |res.value| == |rs|
    ensures res.Ok? ==> forall i :: 0 <= i < |rs| ==> DecodeOverride(rs[i]) == Ok(res.value[i])
  {
    if rs == [] then Ok([])
    else
      match DecodeOverride(rs[0])
      case Err(e) => Err(e)
      case Ok(o) =>
        match DecodeOverrides(rs[1..])
        case Err(e) => Err(e)
        case Ok(rest) =>
          assert forall i :: 1 <= i < |rs| ==> rs[i] == rs[1..][i - 1];
          Ok([o] + rest)
  }

  /** A settings object: an absent `servers` or `project_overrides` list is
    * an empty one. */
  function DecodeSettings(r: RawSettings): (res: Result<McpSettings, BackendError>)
    ensures r.servers.None? && r.projectOverrides.None? ==> res == Ok(EmptySettings())
    ensures res.Ok? && r.servers.None? ==> res.value.servers == []
    ensures res.Ok? && r.projectOverrides.None? ==> res.value.projectOverrides == []
    ensures res.Ok? <==>
      && (forall i :: 0 <= i < |r.servers.GetOr([])| ==> DecodeServer(r.servers.GetOr([])[i]).Ok?)
      && (forall i :: 0 <= i < |r.projectOverrides.GetOr([])| ==> DecodeOverride(r.projectOverrides.GetOr([])[i]).Ok?)
    ensures res.Ok? && r.servers.Some? ==>
      && |res.value.servers| == |r.servers.value|
      && forall i :: 0 <= i < |r.servers.value| ==> DecodeServer(r.servers.value[i]) == Ok(res.value.servers[i])
    ensures res.Ok? && r.projectOverrides.Some? ==>
      && |res.value.projectOverrides| == |r.projectOverrides.value|
      && forall i :: 0 <= i < |r.projectOverrides.value| ==>
           DecodeOverride(r.projectOverrides.value[i]) == Ok(res.value.projectOverrides[i])
  {
    match DecodeServers(r.servers.GetOr([]))
    case Err(e) => Err(e)
    case Ok(servers) =>
      match DecodeOverrides(r.projectOverrides.GetOr([]))
      case Err(e) => Err(e)
      case Ok(overrides) => Ok(McpSettings(servers, overrides))
  }

  function EncodeServer(s: McpServer): RawServer {
    RawServer(Some(s.id), Some(s.name), s.description, Some(s.endpoint), s.apiKey, Some(s.enabled))
  }

  function EncodeOverride(o: ProjectOverride): RawOverride {
    RawOverride(Some(o.project), Some(o.serverId), o.lastSyncedAt)
  }

  /** What the source writes: every field present. */
  function EncodeSettings(s: McpSettings): RawSettings {
    RawSettings(Some(seq(|s.servers|, i requires 0 <= i < |s.servers| => EncodeServer(s.servers[i]))),
                Some(seq(|s.projectOverrides|, i requires 0 <= i < |s.projectOverrides| =>
                                                 EncodeOverride(s.projectOverrides[i]))))
  }

  /** Writing settings and reading them back gives the same settings. */
  lemma {:induction false} DecodeEncodeSettings(s: McpSettings)
    ensures DecodeSettings(EncodeSettings(s)) == Ok(s)
  {
    var raw := EncodeSettings(s);
    var rs := raw.servers.value;
    var ro := raw.projectOverrides.value;
    assert forall i :: 0 <= i < |rs| ==> DecodeServer(rs[i]) == Ok(s.servers[i]);
    assert forall i :: 0 <= i < |ro| ==> DecodeOverride(ro[i]) == Ok(s.projectOverrides[i]);
    var ds := DecodeServers(rs);
    var dov := DecodeOverrides(ro);
    assert ds.value == s.servers;
    assert dov.value == s.projectOverrides;
  }
}

=== FILE: db.dfy ===
/** The settings store: one master record, a registry of detected tools
  * keyed by name, an append-only reconciliation history and a catalog of
  * recommended servers keyed by id. The tables become fields; each method
  * is one statement (or one short sequence of statements) on them. The SQL
  * text, the connection lock and the clock are not part of this model. */
module Db {
  import opened Wrappers
  import opened Errors
  import opened Config
  import opened Seqs

  datatype MasterRow = MasterRow(content: McpSettings, updatedAt: Timestamp)
  datatype ToolRow = ToolRow(configPath: string, lastDetectedAt: Timestamp)
  datatype HistoryRow = HistoryRow(toolName: string, status: string, message: string, syncedAt: Timestamp)

  /** The master a store without one is initialised with. */
  function DefaultMaster(): (s: McpSettings)
    ensures s.servers == [DefaultServer()] && s.projectOverrides == []
  {
    McpSettings([DefaultServer()], [])
  }

  // ---------------------------------------------------------------------
  // The status column: the variant's name in lower case.

  function EncodeStatus(s: SyncStatus): (text: string)
    ensures s == Updated ==> text == "updated"
    ensures s == Skipped ==> text == "skipped"
    ensures s == Failed ==> text == "failed"
  {
    match s
    case Updated => "updated"
    case Skipped => "skipped"
    case Failed => "failed"
  }

  /** Reading the status column back; anything unrecognised reads as Failed. */
  function DecodeStatus(text: string): (s: SyncStatus)
    ensures s == Updated <==> text == "updated"
    ensures s == Skipped <==> text == "skipped"
    ensures s == Failed <==> text != "updated" && text != "skipped"
  {
    if text == "updated" then Updated
    else if text == "skipped" then Skipped
    else Failed
  }

  lemma StatusRoundTrip(s: SyncStatus)
    ensures DecodeStatus(EncodeStatus(s)) == s
  {
  }

  function EncodeRow(s: SyncSummary): HistoryRow {
    HistoryRow(s.tool, EncodeStatus(s.status), s.message, s.syncedAt)
  }

  function DecodeRow(r: HistoryRow): SyncSummary {
    SyncSummary(r.toolName, DecodeStatus(r.status), r.message, r.syncedAt)
  }

  /** A recorded outcome reads back unchanged. */
  lemma RowRoundTrip(s: SyncSummary)
    ensures DecodeRow(EncodeRow(s)) == s
  {
    StatusRoundTrip(s.status);
  }

  // ---------------------------------------------------------------------
  // ORDER BY synced_at DESC. SQL leaves the order of equal timestamps open;
  // this model lists the later-recorded row of two equal ones first.

  predicate NewestFirstOrder(s: seq<HistoryRow>) {
    forall i, j :: 0 <= i < j < |s| ==> s[i].syncedAt >= s[j].syncedAt
  }

  function InsertByTime(r: HistoryRow, s: seq<HistoryRow>): (t: seq<HistoryRow>)
    ensures |t| == |s| + 1
    ensures t[0] == r || (s != [] && t[0] == s[0])
  {
    if s == [] || r.syncedAt > s[0].syncedAt then [r] + s
    else [s[0]] + InsertByTime(r, s[1..])
  }

  function NewestFirst(h: seq<HistoryRow>): (s: seq<HistoryRow>)
    ensures |s| == |h|
  {
    if h == [] then [] else InsertByTime(h[0], NewestFirst(h[1..]))
  }

  lemma {:induction false} InsertByTimeSorted(r: HistoryRow, s: seq<HistoryRow>)
    requires NewestFirstOrder(s)
    ensures NewestFirstOrder(InsertByTime(r, s))
  {
    if s != [] && r.syncedAt <= s[0].syncedAt {
      var t := InsertByTime(r, s[1..]);
      InsertByTimeSorted(r, s[1..]);
      assert s[0].syncedAt >= t[0].syncedAt by {
        if t[0] != r { assert t[0] == s[1..][0] == s[1]; }
      }
      assert InsertByTime(r, s) == [s[0]] + t;
    }
  }

  lemma {:induction false} InsertByTimePermutes(r: HistoryRow, s: seq<HistoryRow>)
    ensures multiset(InsertByTime(r, s)) == multiset(s) + multiset{r}
  {
    if s != [] && r.syncedAt <= s[0].syncedAt {
      InsertByTimePermutes(r, s[1..]);
      assert s == [s[0]] + s[1..];
    }
  }

  /** The ordering is a rearrangement of the history, newest first. */
  lemma {:induction false} NewestFirstIsSortedPermutation(h: seq<HistoryRow>)
    ensures NewestFirstOrder(NewestFirst(h))
    ensures multiset(NewestFirst(h)) == multiset(h)
  {
    if h != [] {
      NewestFirstIsSortedPermutation(h[1..]);
      InsertByTimeSorted(h[0], NewestFirst(h[1..]));
      InsertByTimePermutes(h[0], NewestFirst(h[1..]));
      assert h == [h[0]] + h[1..];
    }
  }

  /** The row count a `LIMIT ?` bound to `limit as i64` admits: a `usize`
    * of 2^63 or more wraps to a negative number, which SQLite reads as no
    * limit at all. */
  function RowLimit(limit: nat, available: nat): (n: nat)
    requires limit < 0x1_0000_0000_0000_0000
    ensures n <= available
    ensures limit < 0x8000_0000_0000_0000 ==> n == if limit < available then limit else available
    ensures limit >= 0x8000_0000_0000_0000 ==> n == available
  {
    if limit >= 0x8000_0000_0000_0000 || available <= limit then available else limit
  }

  // ---------------------------------------------------------------------
  // Tool names are listed in ascending order. SQLite compares text byte by
  // byte; on UTF-8 that is the order of the characters' code points.

  predicate LexLe(a: string, b: string) {
    if a == [] then true
    else if b == [] then false
    else if a[0] != b[0] then a[0] < b[0]
    else LexLe(a[1..], b[1..])
  }

  predicate LexLt(a: string, b: string) {
    LexLe(a, b) && a != b
  }

  lemma {:induction false} LexLeTotal(a: string, b: string)
    ensures LexLe(a, b) || LexLe(b, a)
  {
    if a != [] && b != [] && a[0] == b[0] {
      LexLeTotal(a[1..], b[1..]);
    }
  }

  lemma {:induction false} LexLeAntisymmetric(a: string, b: string)
    requires LexLe(a, b) && LexLe(b, a)
    ensures a == b
  {
    if a != [] && b != [] {
      LexLeAntisymmetric(a[1..], b[1..]);
      assert a == [a[0]] + a[1..] && b == [b[0]] + b[1..];
    }
  }

  lemma {:induction false} LexLeTransitive(a: string, b: string, c: string)
    requires LexLe(a, b) && LexLe(b, c)
    ensures LexLe(a, c)
  {
    if a != [] && b != [] && c != [] && a[0] == b[0] && b[0] == c[0] {
      LexLeTransitive(a[1..], b[1..], c[1..]);
    }
  }

  /** Every finite non-empty set of names has a least one. */
  lemma {:induction false} LeastNameExists(s: set<string>)
    requires s != {}
    ensures exists m :: m in s && forall x :: x in s ==> LexLe(m, x)
    decreases s
  {
    var y :| y in s;
    if s == {y} {
      assert LexLe(y, y) by { LexLeTotal(y, y); }
    } else {
      LeastNameExists(s - {y});
      var m :| m in s - {y} && forall x :: x in s - {y} ==> LexLe(m, x);
      LexLeTotal(m, y);
      if LexLe(y, m) {
        forall x | x in s ensures LexLe(y, x) {
          if x != y { LexLeTransitive(y, m, x); } else { LexLeTotal(y, y); }
        }
      } else {
        assert forall x :: x in s ==> LexLe(m, x);
      }
    }
  }

  /** A listed tool's name and path. */
  function ListedName(e: (string, string)): string { e.0 }
  function ListedPath(e: (string, string)): string { e.1 }

  /** What the listing loop keeps: the names listed so far and those still
    * to list make up all tools; the listed ones are in ascending order and
    * precede every name still to list. */
  ghost predicate Listing(listed: seq<(string, string)>, remaining: set<string>, tools: map<string, ToolRow>) {
    && remaining <= tools.Keys
    && Keys(listed, ListedName) + remaining == tools.Keys
    && (forall i :: 0 <= i < |listed| ==>
          listed[i].0 in tools && listed[i].0 !in remaining && listed[i].1 == tools[listed[i].0].configPath)
    && (forall i, j :: 0 <= i < j < |listed| ==> LexLt(listed[i].0, listed[j].0))
    && (forall i, x :: 0 <= i < |listed| && x in remaining ==> LexLt(listed[i].0, x))
  }

  lemma ListingStep(listed: seq<(string, string)>, remaining: set<string>, tools: map<string, ToolRow>, k: string)
    requires Listing(listed, remaining, tools)
    requires k in remaining && forall x :: x in remaining ==> LexLe(k, x)
    ensures Listing(listed + [(k, tools[k].configPath)], remaining - {k}, tools)
  {
    var listed' := listed + [(k, tools[k].configPath)];
    assert Keys(listed', ListedName) == Keys(listed, ListedName) + {k} by {
      assert listed'[|listed|].0 == k;
      assert forall i :: 0 <= i < |listed| ==> listed'[i] == listed[i];
    }
  }

  /** A catalog seeded from `defaults` holds, under each id of `defaults`,
    * the first default with that id (`INSERT OR IGNORE` keeps the first). */
  ghost predicate SeededFrom(catalog: map<string, RecommendedServer>, defaults: seq<RecommendedServer>) {
    && catalog.Keys == Keys(defaults, RecommendedId)
    && forall k :: k in catalog ==> catalog[k].id == k && IsFirstOf(catalog[k], defaults, RecommendedId)
  }

  function RecommendedId(r: RecommendedServer): string { r.id }

  /** One `INSERT OR IGNORE` of the seeding loop keeps the catalog seeded
    * from the defaults processed so far. */
  lemma SeedStep(catalog: map<string, RecommendedServer>, done: seq<RecommendedServer>, d: RecommendedServer)
    requires SeededFrom(catalog, done)
    ensures SeededFrom(if d.id in catalog then catalog else catalog[d.id := d], done + [d])
  {
    var done' := done + [d];
    var catalog' := if d.id in catalog then catalog else catalog[d.id := d];
    KeysOfConcat(done, [d], RecommendedId);
    assert Keys([d], RecommendedId) == {d.id} by { assert [d][0] == d; }
    forall k | k in catalog' ensures catalog'[k].id == k && IsFirstOf(catalog'[k], done', RecommendedId) {
      FirstPosSnoc(catalog'[k], done, d, RecommendedId);
      if k in catalog {
        assert done'[FirstPos(catalog[k], done, RecommendedId)] == done[FirstPos(catalog[k], done, RecommendedId)];
      } else {
        assert FirstPos(d, done, RecommendedId) == |done|;
      }
    }
  }

  class Database {
    /** When set, every statement on the connection fails. */
    var failing: bool
    var master: Option<MasterRow>
    var tools: map<string, ToolRow>
    var history: seq<HistoryRow>
    var catalog: map<string, RecommendedServer>

    /** The catalog's primary key is the server id. */
    ghost predicate Valid()
      reads this
    {
      forall k :: k in catalog ==> catalog[k].id == k
    }

    /** `Database::initialize`: opens the store file with the tables it
      * already holds (all empty on a first run; `CREATE TABLE IF NOT
      * EXISTS` keeps existing ones), then seeds the catalog if it is empty. */
    constructor Initialize(storedMaster: Option<MasterRow>, storedTools: map<string, ToolRow>,
                           storedHistory: seq<HistoryRow>, storedCatalog: map<string, RecommendedServer>,
                           defaults: seq<RecommendedServer>)
      requires forall k :: k in storedCatalog ==> storedCatalog[k].id == k
      ensures Valid() && !failing
      ensures master == storedMaster && tools == storedTools && history == storedHistory
      ensures storedCatalog != map[] ==> catalog == storedCatalog
      ensures storedCatalog == map[] ==> SeededFrom(catalog, defaults)
    {
      failing := false;
      master := storedMaster;
      tools := storedTools;
      history := storedHistory;
      catalog := storedCatalog;
      new;
      var _ := SeedRecommendedServers(defaults);
    }

    /** `seed_recommended_servers`: only an empty catalog is seeded. */
    method SeedRecommendedServers(defaults: seq<RecommendedServer>) returns (r: Result<(), BackendError>)
      requires Valid()
      modifies this`catalog
      ensures Valid()
      ensures r.Ok? <==> !failing
      ensures r.Err? ==> r.error == Database
      ensures failing || old(catalog) != map[] ==> catalog == old(catalog)
      ensures !failing && old(catalog) == map[] ==> SeededFrom(catalog, defaults)
    {
      if failing {
        return Err(Database);
      }
      if catalog == map[] {
        for i := 0 to |defaults|
          invariant SeededFrom(catalog, defaults[..i])
        {
          var d := defaults[i];
          assert defaults[..i + 1] == defaults[..i] + [d];
          SeedStep(catalog, defaults[..i], d);
          if d.id !in catalog {
            catalog := catalog[d.id := d];
          }
        }
        assert defaults[..|defaults|] == defaults;
      }
      return Ok(());
    }

    function GetRecommendedServer(id: string): (r: Result<Option<RecommendedServer>, BackendError>)
      reads this
      requires Valid()
      ensures r.Ok? <==> !failing
      ensures r.Err? ==> r.error == Database
      ensures r.Ok? ==> (r.value.Some? <==> id in catalog)
      ensures r.Ok? && r.value.Some? ==> r.value.value.id == id && r.value.value == catalog[id]
    {
      if failing then Err(Database)
      else if id in catalog then Ok(Some(catalog[id]))
      else Ok(None)
    }

    /** `upsert_master_config`: there is one master record, replaced whole. */
    method UpsertMasterConfig(settings: McpSettings, now: Timestamp) returns (r: Result<(), BackendError>)
      modifies this`master
      ensures r.Ok? <==> !failing
      ensures r.Err? ==> r.error == Database && master == old(master)
      ensures r.Ok? ==> master == Some(MasterRow(settings, now))
      ensures r.Ok? ==> GetMasterConfig() == Ok(MasterConfigResponse(settings, now))
    {
      if failing {
        return Err(Database);
      }
      master := Some(MasterRow(settings, now));
      return Ok(());
    }

    /** `get_master_config`: the stored master and its time, or
      * ConfigNotFound when none is stored. */
    function GetMasterConfig(): (r: Result<MasterConfigResponse, BackendError>)
      reads this
      ensures r == Err(Database) <==> failing
      ensures r == Err(ConfigNotFound) <==> !failing && master.None?
      ensures r.Ok? <==> !failing && master.Some?
      ensures r.Ok? ==> r.value.settings == master.value.content && r.value.updatedAt == master.value.updatedAt
    {
      if failing then Err(Database)
      else if master.None? then Err(ConfigNotFound)
      else Ok(MasterConfigResponse(master.value.content, master.value.updatedAt))
    }

    /** `ensure_master_config`: the stored master, or, when there is none,
      * a master holding just the default server, stored first. Any other
      * failure is passed on and nothing is written. */
    method EnsureMasterConfig(now: Timestamp) returns (r: Result<MasterConfigResponse, BackendError>)
      modifies this`master
      ensures r.Ok? <==> !failing
      ensures r.Err? ==> r.error == Database && master == old(master)
      ensures r.Ok? && old(master).Some? ==> master == old(master)
      ensures r.Ok? && old(master).Some? ==>
        r.value == MasterConfigResponse(old(master).value.content, old(master).value.updatedAt)
      ensures r.Ok? && old(master).None? ==> master == Some(MasterRow(DefaultMaster(), now))
      ensures r.Ok? && old(master).None? ==> r.value == MasterConfigResponse(DefaultMaster(), now)
      ensures r.Ok? ==> master.Some? && r.value.settings == master.value.content
    {
      var got := GetMasterConfig();
      match got {
        case Ok(cfg) =>
          r := Ok(cfg);
        case Err(ConfigNotFound) =>
          var up := UpsertMasterConfig(DefaultMaster(), now);
          if up.Err? {
            return Err(up.error);
          }
          r := GetMasterConfig();
        case Err(e) =>
          r := Err(e);
      }
    }

    /** `record_tool_detection`: one row per tool name; detecting a tool
      * again replaces its path and detection time. */
    method RecordToolDetection(name: string, configPath: string, now: Timestamp) returns (r: Result<(), BackendError>)
      modifies this`tools
      ensures r.Ok? <==> !failing
      ensures r.Err? ==> r.error == Database && tools == old(tools)
      ensures r.Ok? ==> tools == old(tools)[name := ToolRow(configPath, now)]
    {
      if failing {
        return Err(Database);
      }
      tools := tools[name := ToolRow(configPath, now)];
      return Ok(());
    }

    /** `list_tools`: every registered tool with its path, by ascending name. */
    method ListTools() returns (r: Result<seq<(string, string)>, BackendError>)
      ensures r.Ok? <==> !failing
      ensures r.Err? ==> r.error == Database
      ensures r.Ok? ==> Keys(r.value, ListedName) == tools.Keys
      ensures r.Ok? ==> forall i :: 0 <= i < |r.value| ==>
        r.value[i].0 in tools && r.value[i].1 == tools[r.value[i].0].configPath
      ensures r.Ok? ==> forall i, j :: 0 <= i < j < |r.value| ==> LexLt(r.value[i].0, r.value[j].0)
    {
      if failing {
        return Err(Database);
      }
      var remaining := tools.Keys;
      var listed: seq<(string, string)> := [];
      while remaining != {}
        invariant Listing(listed, remaining, tools)
        decreases remaining
      {
        LeastNameExists(remaining);
        var k :| k in remaining && forall x :: x in remaining ==> LexLe(k, x);
        ListingStep(listed, remaining, tools, k);
        listed := listed + [(k, tools[k].configPath)];
        remaining := remaining - {k};
      }
      return Ok(listed);
    }

    /** `record_sync`: appends one row to the history. */
    method RecordSync(summary: SyncSummary) returns (r: Result<(), BackendError>)
      modifies this`history
      ensures r.Ok? <==> !failing
      ensures r.Err? ==> r.error == Database && history == old(history)
      ensures r.Ok? ==> history == old(history) + [EncodeRow(summary)]
    {
      if failing {
        return Err(Database);
      }
      history := history + [EncodeRow(summary)];
      return Ok(());
    }

    /** `recent_sync_history`: at most `limit` outcomes, newest first. */
    method RecentSyncHistory(limit: nat) returns (r: Result<seq<SyncSummary>, BackendError>)
      requires limit < 0x1_0000_0000_0000_0000
      ensures r.Ok? <==> !failing
      ensures r.Err? ==> r.error == Database
      ensures r.Ok? ==> |r.value| == RowLimit(limit, |history|) && |r.value| <= |history|
      ensures r.Ok? ==> forall i :: 0 <= i < |r.value| ==> r.value[i] == DecodeRow(NewestFirst(history)[i])
      ensures r.Ok? ==> forall i, j :: 0 <= i < j < |r.value| ==> r.value[i].syncedAt >= r.value[j].syncedAt
    {
      if failing {
        return Err(Database);
      }
      var sorted := NewestFirst(history);
      var n := RowLimit(limit, |history|);
      var items: seq<SyncSummary> := [];
      for i := 0 to n
        invariant |items| == i
        invariant forall j :: 0 <= j < i ==> items[j] == DecodeRow(sorted[j])
      {
        items := items + [DecodeRow(sorted[i])];
      }
      NewestFirstIsSortedPermutation(history);
      assert NewestFirstOrder(sorted);
      forall i, j | 0 <= i < j < |items| ensures items[i].syncedAt >= items[j].syncedAt {
        assert items[i].syncedAt == sorted[i].syncedAt && items[j].syncedAt == sorted[j].syncedAt;
      }
      return Ok(items);
    }
  }
}

=== FILE: errors.dfy ===
/** The error kinds of the backend (`BackendError`). The payloads of the
  * foreign error types are dropped: only which kind of failure occurred
  * matters to the model. */
module Errors {

  datatype BackendError =
    | Database      // a statement on the settings store failed
    | Io            // a file could not be read or written
    | SerdeJson     // a file or a stored record is not valid settings JSON
    | ConfigNotFound
    | Other(message: string)
}

=== FILE: files.dfy ===
/** The tool configuration files, as far as reconciliation sees them: a map
  * from path to what the file holds. Reading parses the file into settings
  * (with the field defaults of `Config.DecodeSettings`); writing replaces
  * the whole file with every field of the settings. */
module Files {
  import opened Wrappers
  import opened Errors
  import opened Config

  /** A file either holds a JSON settings object or something else (an
    * empty or cut-off file among them). */
  datatype FileContent = Json(raw: RawSettings) | NotJson

  /** Reading `path` from the files `files`: a missing file is an I/O
    * error, a file that is not settings JSON a serialization error. */
  function ReadFile(files: map<string, FileContent>, path: string): Result<McpSettings, BackendError> {
    if path !in files then Err(Io)
    else match files[path]
      case NotJson => Err(SerdeJson)
      case Json(raw) => DecodeSettings(raw)
  }

  class FileSystem {
    var files: map<string, FileContent>
    /** Paths whose write fails before the file is opened (no permission,
      * a parent directory that cannot be created): the file is kept. */
    var unwritable: set<string>
    /** Paths whose write fails after the file was opened and emptied (a
      * full disk): the file is left empty or cut off. */
    var truncating: set<string>

    constructor (files: map<string, FileContent>, unwritable: set<string>, truncating: set<string>)
      ensures this.files == files && this.unwritable == unwritable && this.truncating == truncating
    {
      this.files := files;
      this.unwritable := unwritable;
      this.truncating := truncating;
    }

    /** `read_settings_from_file`. */
    function ReadSettings(path: string): (r: Result<McpSettings, BackendError>)
      reads this`files
      ensures path !in files ==> r == Err(Io)
      ensures path in files && files[path].NotJson? ==> r == Err(SerdeJson)
      ensures path in files && files[path].Json? ==> r == DecodeSettings(files[path].raw)
    {
      ReadFile(files, path)
    }

    /** A write to `path` succeeds. */
    predicate Writable(path: string)
      reads this`unwritable, this`truncating
    {
      path !in unwritable && path !in truncating
    }

    /** The files `before` become after an attempt to write `settings` to
      * `path`, whether or not the attempt succeeds. */
    function Written(before: map<string, FileContent>, path: string, settings: McpSettings): map<string, FileContent>
      reads this`unwritable, this`truncating
    {
      if path in unwritable then before
      else if path in truncating then before[path := NotJson]
      else before[path := Json(EncodeSettings(settings))]
    }

    /** `write_settings_to_file`: `fs::write` creates (empties) the file and
      * then writes it whole. A failure before the file is opened keeps it;
      * a failure after leaves it holding no settings. Either way only that
      * path changes. */
    method WriteSettings(path: string, settings: McpSettings) returns (r: Result<(), BackendError>)
      modifies this`files
      ensures r.Ok? <==> Writable(path)
      ensures r.Err? ==> r.error == Io
      ensures path in unwritable ==> files == old(files)
      ensures path !in unwritable && path in truncating ==>
        files == old(files)[path := NotJson] && ReadSettings(path) == Err(SerdeJson)
      ensures r.Ok? ==> files == old(files)[path := Json(EncodeSettings(settings))]
      ensures r.Ok? ==> ReadSettings(path) == Ok(settings)
      ensures files == Written(old(files), path, settings)
    {
      if path in unwritable {
        return Err(Io);
      }
      if path in truncating {
        files := files[path := NotJson];
        return Err(Io);
      }
      files := files[path := Json(EncodeSettings(settings))];
      DecodeEncodeSettings(settings);
      return Ok(());
    }
  }
}

=== FILE: merge.dfy ===
/** The specification of the merge engine: what merging a tool's settings
  * into the master yields, and the properties that result has. The loops
  * that compute it are in module Sync and are proved equal to `Merged`. */
module Merge {
  import opened Wrappers
  import opened Config
  import opened Seqs

  /** The identity of a server entry. */
  function ServerId(s: McpServer): string { s.id }

  /** The identity of a project override; its `serverId` plays no part. */
  function OverrideProject(o: ProjectOverride): string { o.project }

  /** The entries of `extra` that the merge appends once the keys in `seen`
    * are known: an entry is taken when its key is not yet known, and its key
    * becomes known. */
  function NewEntries<T, K(==)>(seen: set<K>, extra: seq<T>, key: T -> K): seq<T>
    decreases |extra|
  {
    if extra == [] then []
    else if key(extra[0]) in seen then NewEntries(seen, extra[1..], key)
    else [extra[0]] + NewEntries(seen + {key(extra[0])}, extra[1..], key)
  }

  /** `base` verbatim, followed by the entries of `extra` with new keys. */
  function MergeKeyed<T, K(==)>(base: seq<T>, extra: seq<T>, key: T -> K): seq<T> {
    base + NewEntries(Keys(base, key), extra, key)
  }

  /** What `merge_settings(master, tool)` returns. */
  function Merged(master: McpSettings, tool: McpSettings): McpSettings {
    if tool == master then tool
    else McpSettings(MergeKeyed(master.servers, tool.servers, ServerId),
                     MergeKeyed(master.projectOverrides, tool.projectOverrides, OverrideProject))
  }

  // ---------------------------------------------------------------------
  // Facts about NewEntries.

  /** Entries whose keys are already known are passed over. */
  lemma {:induction false} NewEntriesSkipsKnown<T, K>(seen: set<K>, x: seq<T>, y: seq<T>, key: T -> K)
    requires Keys(x, key) <= seen
    ensures NewEntries(seen, x + y, key) == NewEntries(seen, y, key)
  {
    if x != [] {
      assert key(x[0]) in Keys(x, key);
      assert (x + y)[1..] == x[1..] + y;
      assert Keys(x[1..], key) <= Keys(x, key) by {
        forall k | k in Keys(x[1..], key) ensures k in Keys(x, key) {
          var i :| 0 <= i < |x[1..]| && key(x[1..][i]) == k;
          assert x[i + 1] == x[1..][i];
        }
      }
      NewEntriesSkipsKnown(seen, x[1..], y, key);
    } else {
      assert x + y == y;
    }
  }

  /** Entries with distinct keys, none known yet, are all taken. */
  lemma {:induction false} NewEntriesOfFresh<T, K>(seen: set<K>, x: seq<T>, key: T -> K)
    requires UniqueKeys(x, key) && Keys(x, key) !! seen
    ensures NewEntries(seen, x, key) == x
    decreases |x|
  {
    if x != [] {
      KeysOfCons(x[0], x[1..], key);
      assert x == [x[0]] + x[1..];
      assert key(x[0]) !in Keys(x[1..], key) by {
        forall i | 0 <= i < |x[1..]| ensures key(x[1..][i]) != key(x[0]) {
          assert x[1..][i] == x[i + 1];
        }
      }
      assert UniqueKeys(x[1..], key) by {
        forall i, j | 0 <= i < j < |x[1..]| ensures key(x[1..][i]) != key(x[1..][j]) {
          assert x[1..][i] == x[i + 1] && x[1..][j] == x[j + 1];
        }
      }
      NewEntriesOfFresh(seen + {key(x[0])}, x[1..], key);
    }
  }

  /** What is taken: entries of `extra`, with distinct keys, none of them
    * known before, and every key of `extra` that was not known. */
  lemma {:induction false} NewEntriesShape<T, K>(seen: set<K>, extra: seq<T>, key: T -> K)
    ensures forall x :: x in NewEntries(seen, extra, key) ==> x in extra && key(x) !in seen
    ensures Keys(NewEntries(seen, extra, key), key) == Keys(extra, key) - seen
    ensures UniqueKeys(NewEntries(seen, extra, key), key)
    decreases |extra|
  {
    if extra != [] {
      var rest := extra[1..];
      assert extra == [extra[0]] + rest;
      KeysOfCons(extra[0], rest, key);
      if key(extra[0]) in seen {
        NewEntriesShape(seen, rest, key);
      } else {
        var seen' := seen + {key(extra[0])};
        var tail := NewEntries(seen', rest, key);
        NewEntriesShape(seen', rest, key);
        KeysOfCons(extra[0], tail, key);
        UniqueKeysOfConcat([extra[0]], tail, key);
      }
    }
  }

  /** Each taken entry is the first entry of `extra` with its key. */
  lemma {:induction false} NewEntriesAreFirst<T, K>(seen: set<K>, extra: seq<T>, key: T -> K)
    ensures forall a :: 0 <= a < |NewEntries(seen, extra, key)| ==>
      IsFirstOf(NewEntries(seen, extra, key)[a], extra, key)
    decreases |extra|
  {
    var n := NewEntries(seen, extra, key);
    if extra != [] {
      var rest := extra[1..];
      if key(extra[0]) in seen {
        NewEntriesAreFirst(seen, rest, key);
        NewEntriesShape(seen, rest, key);
        forall a | 0 <= a < |n| ensures IsFirstOf(n[a], extra, key) {
          FirstOfCons(n[a], extra, key);
        }
      } else {
        var seen' := seen + {key(extra[0])};
        var tail := NewEntries(seen', rest, key);
        NewEntriesAreFirst(seen', rest, key);
        NewEntriesShape(seen', rest, key);
        assert n == [extra[0]] + tail;
        forall a | 0 <= a < |n| ensures IsFirstOf(n[a], extra, key) {
          if a > 0 {
            assert n[a] == tail[a - 1];
            FirstOfCons(n[a], extra, key);
          }
        }
      }
    }
  }

  /** Taken entries keep the order in which their keys first occur in `extra`. */
  lemma {:induction false} NewEntriesInFirstOrder<T, K>(seen: set<K>, extra: seq<T>, key: T -> K)
    ensures forall a, b :: 0 <= a < b < |NewEntries(seen, extra, key)| ==>
      FirstPos(NewEntries(seen, extra, key)[a], extra, key) < FirstPos(NewEntries(seen, extra, key)[b], extra, key)
    decreases |extra|
  {
    var n := NewEntries(seen, extra, key);
    if extra != [] {
      var rest := extra[1..];
      if key(extra[0]) in seen {
        NewEntriesInFirstOrder(seen, rest, key);
        NewEntriesShape(seen, rest, key);
        forall a | 0 <= a < |n| ensures FirstPos(n[a], extra, key) == 1 + FirstPos(n[a], rest, key) {
          FirstOfCons(n[a], extra, key);
        }
      } else {
        var seen' := seen + {key(extra[0])};
        var tail := NewEntries(seen', rest, key);
        NewEntriesInFirstOrder(seen', rest, key);
        NewEntriesShape(seen', rest, key);
        assert n == [extra[0]] + tail;
        forall a | 0 <= a < |tail| ensures FirstPos(tail[a], extra, key) == 1 + FirstPos(tail[a], rest, key) {
          FirstOfCons(tail[a], extra, key);
        }
        forall a, b | 0 <= a < b < |n| ensures FirstPos(n[a], extra, key) < FirstPos(n[b], extra, key) {
          assert n[b] == tail[b - 1];
          if a > 0 { assert n[a] == tail[a - 1]; }
        }
      }
    }
  }

  // ---------------------------------------------------------------------
  // Properties of merging settings.

  /** Merging the master into itself gives the master. */
  lemma MergedSelf(m: McpSettings)
    ensures Merged(m, m) == m
  {
  }

  /** The equality short-cut changes nothing: merging settings equal to the
    * master by the general rule also gives the master. */
  lemma MergedIsAlwaysKeyed(m: McpSettings, t: McpSettings)
    ensures Merged(m, t) == McpSettings(MergeKeyed(m.servers, t.servers, ServerId),
                                         MergeKeyed(m.projectOverrides, t.projectOverrides, OverrideProject))
  {
    if t == m {
      NewEntriesSkipsKnown(Keys(m.servers, ServerId), m.servers, [], ServerId);
      NewEntriesSkipsKnown(Keys(m.projectOverrides, OverrideProject), m.projectOverrides, [], OverrideProject);
      assert m.servers + [] == m.servers;
      assert m.projectOverrides + [] == m.projectOverrides;
    }
  }

  /** The master's entries come first, in the master's order and with the
    * master's field values; whatever follows comes from the tool and has
    * an id (a project) the master does not have. */
  lemma MergedKeepsMasterFirst(m: McpSettings, t: McpSettings)
    ensures |Merged(m, t).servers| >= |m.servers|
    ensures Merged(m, t).servers[..|m.servers|] == m.servers
    ensures forall i :: |m.servers| <= i < |Merged(m, t).servers| ==>
      Merged(m, t).servers[i] in t.servers && Merged(m, t).servers[i].id !in Keys(m.servers, ServerId)
    ensures |Merged(m, t).projectOverrides| >= |m.projectOverrides|
    ensures Merged(m, t).projectOverrides[..|m.projectOverrides|] == m.projectOverrides
    ensures forall i :: |m.projectOverrides| <= i < |Merged(m, t).projectOverrides| ==>
      Merged(m, t).projectOverrides[i] in t.projectOverrides &&
      Merged(m, t).projectOverrides[i].project !in Keys(m.projectOverrides, OverrideProject)
  {
    MergedIsAlwaysKeyed(m, t);
    var r := Merged(m, t);
    var ns := NewEntries(Keys(m.servers, ServerId), t.servers, ServerId);
    var no := NewEntries(Keys(m.projectOverrides, OverrideProject), t.projectOverrides, OverrideProject);
    NewEntriesShape(Keys(m.servers, ServerId), t.servers, ServerId);
    NewEntriesShape(Keys(m.projectOverrides, OverrideProject), t.projectOverrides, OverrideProject);
    assert forall i :: |m.servers| <= i < |r.servers| ==> r.servers[i] == ns[i - |m.servers|];
    assert forall i :: |m.projectOverrides| <= i < |r.projectOverrides| ==>
      r.projectOverrides[i] == no[i - |m.projectOverrides|];
  }

  /** A merged entry with an id the master knows is the master's entry. */
  lemma MergedMasterWins(m: McpSettings, t: McpSettings)
    ensures forall x :: x in Merged(m, t).servers && x.id in Keys(m.servers, ServerId) ==> x in m.servers
    ensures forall x :: (x in Merged(m, t).projectOverrides &&
                         x.project in Keys(m.projectOverrides, OverrideProject)) ==> x in m.projectOverrides
  {
    MergedIsAlwaysKeyed(m, t);
    NewEntriesShape(Keys(m.servers, ServerId), t.servers, ServerId);
    NewEntriesShape(Keys(m.projectOverrides, OverrideProject), t.projectOverrides, OverrideProject);
  }

  /** No id is lost: the merged ids are those of the master and the tool. */
  lemma MergedCoversBoth(m: McpSettings, t: McpSettings)
    ensures Keys(Merged(m, t).servers, ServerId) == Keys(m.servers, ServerId) + Keys(t.servers, ServerId)
    ensures Keys(Merged(m, t).projectOverrides, OverrideProject) ==
      Keys(m.projectOverrides, OverrideProject) + Keys(t.projectOverrides, OverrideProject)
  {
    MergedIsAlwaysKeyed(m, t);
    var ns := NewEntries(Keys(m.servers, ServerId), t.servers, ServerId);
    var no := NewEntries(Keys(m.projectOverrides, OverrideProject), t.projectOverrides, OverrideProject);
    NewEntriesShape(Keys(m.servers, ServerId), t.servers, ServerId);
    NewEntriesShape(Keys(m.projectOverrides, OverrideProject), t.projectOverrides, OverrideProject);
    KeysOfConcat(m.servers, ns, ServerId);
    KeysOfConcat(m.projectOverrides, no, OverrideProject);
  }

  /** A master without duplicate ids yields a merge without duplicate ids,
    * whatever duplicates the tool has; likewise for projects. */
  lemma MergedUnique(m: McpSettings, t: McpSettings)
    ensures UniqueKeys(m.servers, ServerId) ==> UniqueKeys(Merged(m, t).servers, ServerId)
    ensures UniqueKeys(m.projectOverrides, OverrideProject) ==>
      UniqueKeys(Merged(m, t).projectOverrides, OverrideProject)
  {
    MergedIsAlwaysKeyed(m, t);
    var ns := NewEntries(Keys(m.servers, ServerId), t.servers, ServerId);
    var no := NewEntries(Keys(m.projectOverrides, OverrideProject), t.projectOverrides, OverrideProject);
    NewEntriesShape(Keys(m.servers, ServerId), t.servers, ServerId);
    NewEntriesShape(Keys(m.projectOverrides, OverrideProject), t.projectOverrides, OverrideProject);
    if UniqueKeys(m.servers, ServerId) {
      UniqueKeysOfConcat(m.servers, ns, ServerId);
    }
    if UniqueKeys(m.projectOverrides, OverrideProject) {
      UniqueKeysOfConcat(m.projectOverrides, no, OverrideProject);
    }
  }

  /** The appended servers are, in order, the first tool entry of each id
    * the master lacks: each is the tool's first entry with its id, and they
    * appear in the order in which their ids first occur in the tool. */
  lemma MergedAppendsFirstOccurrences(m: McpSettings, t: McpSettings)
    ensures |Merged(m, t).servers| >= |m.servers|
    ensures forall a :: |m.servers| <= a < |Merged(m, t).servers| ==>
      IsFirstOf(Merged(m, t).servers[a], t.servers, ServerId)
    ensures forall a, b :: |m.servers| <= a < b < |Merged(m, t).servers| ==>
      FirstPos(Merged(m, t).servers[a], t.servers, ServerId) < FirstPos(Merged(m, t).servers[b], t.servers, ServerId)
  {
    MergedIsAlwaysKeyed(m, t);
    var r := Merged(m, t).servers;
    var ns := NewEntries(Keys(m.servers, ServerId), t.servers, ServerId);
    NewEntriesAreFirst(Keys(m.servers, ServerId), t.servers, ServerId);
    NewEntriesInFirstOrder(Keys(m.servers, ServerId), t.servers, ServerId);
    assert forall a :: |m.servers| <= a < |r| ==> r[a] == ns[a - |m.servers|];
  }

  /** Merging again against the same master changes nothing. */
  lemma MergedIdempotent(m: McpSettings, t: McpSettings)
    ensures Merged(m, Merged(m, t)) == Merged(m, t)
  {
    var r := Merged(m, t);
    MergedIsAlwaysKeyed(m, t);
    MergedIsAlwaysKeyed(m, r);
    var ks := Keys(m.servers, ServerId);
    var ko := Keys(m.projectOverrides, OverrideProject);
    var ns := NewEntries(ks, t.servers, ServerId);
    var no := NewEntries(ko, t.projectOverrides, OverrideProject);
    NewEntriesShape(ks, t.servers, ServerId);
    NewEntriesShape(ko, t.projectOverrides, OverrideProject);
    NewEntriesSkipsKnown(ks, m.servers, ns, ServerId);
    NewEntriesSkipsKnown(ko, m.projectOverrides, no, OverrideProject);
    NewEntriesOfFresh(ks, ns, ServerId);
    NewEntriesOfFresh(ko, no, OverrideProject);
  }

  /** A master entry wins over the tool's entry with the same id, and a
    * tool-only entry is kept. */
  lemma MergedScenario()
    ensures
      var master := McpSettings([McpServer("default", "Default", None, "http://a", None, true)], []);
      var tool := McpSettings([McpServer("default", "Default", None, "http://a", None, false),
                               McpServer("custom", "Custom", None, "http://c", None, true)], []);
      Merged(master, tool) ==
        McpSettings([McpServer("default", "Default", None, "http://a", None, true),
                     McpServer("custom", "Custom", None, "http://c", None, true)], [])
  {
    var d := McpServer("default", "Default", None, "http://a", None, true);
    var c := McpServer("custom", "Custom", None, "http://c", None, true);
    var master := McpSettings([d], []);
    var tool := McpSettings([d.(enabled := false), c], []);
    assert Keys(master.servers, ServerId) == {"default"} by {
      assert master.servers[0] == d;
    }
    assert NewEntries({"default"}, tool.servers, ServerId) == [c] by {
      assert tool.servers[1..] == [c];
      assert [c][1..] == [];
    }
  }
}

=== FILE: seqs.dfy ===
/** Generic facts about sequences of keyed entries and about filtering,
  * shared by the merge engine and the command-line helpers. */
module Seqs {

  /** The keys that occur in `s`. */
  function Keys<T, K>(s: seq<T>, key: T -> K): set<K> {
    set i | 0 <= i < |s| :: key(s[i])
  }

  /** No key occurs twice in `s`. */
  predicate UniqueKeys<T, K(==)>(s: seq<T>, key: T -> K) {
    forall i, j :: 0 <= i < j < |s| ==> key(s[i]) != key(s[j])
  }

  /** The position of the first entry of `s` with the key of `x`, or |s| when there is none. */
  function FirstPos<T, K(==)>(x: T, s: seq<T>, key: T -> K): (i: nat)
    ensures i <= |s|
    ensures i < |s| ==> key(s[i]) == key(x)
    ensures forall j :: 0 <= j < i ==> key(s[j]) != key(x)
    decreases |s|
  {
    if s == [] then 0
    else if key(s[0]) == key(x) then 0
    else 1 + FirstPos(x, s[1..], key)
  }

  /** `x` is the first entry of `s` with its key. */
  predicate IsFirstOf<T(==), K(==)>(x: T, s: seq<T>, key: T -> K) {
    FirstPos(x, s, key) < |s| && s[FirstPos(x, s, key)] == x
  }

  lemma FirstOfCons<T, K>(x: T, s: seq<T>, key: T -> K)
    requires |s| > 0 && key(s[0]) != key(x)
    ensures FirstPos(x, s, key) == 1 + FirstPos(x, s[1..], key)
    ensures IsFirstOf(x, s, key) <==> IsFirstOf(x, s[1..], key)
  {
  }

  /** Appending an entry does not move the first occurrence of a key that
    * is already present. */
  lemma {:induction false} FirstPosSnoc<T, K>(x: T, s: seq<T>, y: T, key: T -> K)
    ensures FirstPos(x, s + [y], key) ==
      if FirstPos(x, s, key) < |s| then FirstPos(x, s, key)
      else if key(y) == key(x) then |s| else |s| + 1
    decreases |s|
  {
    if s == [] {
      assert [] + [y] == [y];
      assert [y][1..] == [];
    } else {
      assert (s + [y])[1..] == s[1..] + [y];
      FirstPosSnoc(x, s[1..], y, key);
    }
  }

  lemma KeysOfConcat<T, K>(a: seq<T>, b: seq<T>, key: T -> K)
    ensures Keys(a + b, key) == Keys(a, key) + Keys(b, key)
  {
    var ab := a + b;
    forall k | k in Keys(a, key) + Keys(b, key) ensures k in Keys(ab, key) {
      if k in Keys(a, key) {
        var i :| 0 <= i < |a| && key(a[i]) == k;
        assert ab[i] == a[i];
      } else {
        var i :| 0 <= i < |b| && key(b[i]) == k;
        assert ab[|a| + i] == b[i];
      }
    }
  }

  lemma KeysOfCons<T, K>(x: T, s: seq<T>, key: T -> K)
    ensures Keys([x] + s, key) == {key(x)} + Keys(s, key)
  {
    KeysOfConcat([x], s, key);
    assert [x][0] == x;
    assert Keys([x], key) == {key(x)};
  }

  lemma UniqueKeysOfConcat<T, K>(a: seq<T>, b: seq<T>, key: T -> K)
    requires UniqueKeys(a, key) && UniqueKeys(b, key)
    requires Keys(a, key) !! Keys(b, key)
    ensures UniqueKeys(a + b, key)
  {
    var ab := a + b;
    forall i, j | 0 <= i < j < |ab| ensures key(ab[i]) != key(ab[j]) {
      if j >= |a| && i < |a| {
        assert key(ab[i]) in Keys(a, key);
        assert key(ab[j]) == key(b[j - |a|]) && key(b[j - |a|]) in Keys(b, key);
      } else if i >= |a| {
        assert ab[i] == b[i - |a|] && ab[j] == b[j - |a|];
      }
    }
  }

  // ---------------------------------------------------------------------
  // Filtering that keeps the original order (Rust's `filter`/`retain`).

  function Filter<T>(s: seq<T>, p: T -> bool): seq<T> {
    if s == [] then []
    else if p(s[0]) then [s[0]] + Filter(s[1..], p)
    else Filter(s[1..], p)
  }

  /** Exactly the elements satisfying `p` survive. */
  lemma {:induction false} FilterMembership<T>(s: seq<T>, p: T -> bool, x: T)
    ensures x in Filter(s, p) <==> x in s && p(x)
  {
    if s != [] {
      FilterMembership(s[1..], p, x);
      assert s == [s[0]] + s[1..];
    }
  }

  /** Filtering distributes over concatenation, so it keeps relative order. */
  lemma {:induction false} FilterConcat<T>(a: seq<T>, b: seq<T>, p: T -> bool)
    ensures Filter(a + b, p) == Filter(a, p) + Filter(b, p)
  {
    if a == [] {
      assert a + b == b;
    } else {
      assert (a + b)[1..] == a[1..] + b;
      FilterConcat(a[1..], b, p);
    }
  }

  /** The filter is empty exactly when nothing satisfies `p`. */
  lemma {:induction false} FilterEmpty<T>(s: seq<T>, p: T -> bool)
    ensures Filter(s, p) == [] <==> forall i :: 0 <= i < |s| ==> !p(s[i])
  {
    if s != [] {
      FilterEmpty(s[1..], p);
      assert forall i :: 1 <= i < |s| ==> s[i] == s[1..][i - 1];
    }
  }
}

=== FILE: sync.dfy ===
/** Reconciliation: the merge loops, the per-tool sync step and tool
  * discovery. Each loop is proved to compute the specification in module
  * Merge; the properties of that specification are proved there. */
module Sync {
  import opened Wrappers
  import opened Errors
  import opened Config
  import opened Seqs
  import opened Merge
  import opened Files
  import opened Db

  const MCP_FILE_NAME := "mcp.json"

  /** `merge_project_overrides`: the master's overrides, then each override
    * for a project not seen yet. */
  method MergeProjectOverrides(masterOverrides: seq<ProjectOverride>, overrides: seq<ProjectOverride>)
    returns (merged: seq<ProjectOverride>)
    ensures merged == MergeKeyed(masterOverrides, overrides, OverrideProject)
  {
    merged := masterOverrides;
    var seen := Keys(masterOverrides, OverrideProject);
    for i := 0 to |overrides|
      invariant seen == Keys(merged, OverrideProject)
      invariant merged + NewEntries(seen, overrides[i..], OverrideProject) ==
                MergeKeyed(masterOverrides, overrides, OverrideProject)
    {
      var o := overrides[i];
      assert overrides[i..] == [o] + overrides[i + 1..];
      if o.project !in seen {
        KeysOfConcat(merged, [o], OverrideProject);
        assert Keys([o], OverrideProject) == {o.project} by { assert [o][0] == o; }
        seen := seen + {o.project};
        merged := merged + [o];
      }
    }
  }

  /** `merge_settings`: a tool already equal to the master is returned as
    * it is; otherwise the master's servers, then each tool server with an
    * id not seen yet, and the overrides merged the same way by project. */
  method MergeSettings(master: McpSettings, tool: McpSettings) returns (merged: McpSettings)
    ensures merged == Merged(master, tool)
  {
    if tool == master {
      return tool;
    }
    var servers := master.servers;
    var known := Keys(master.servers, ServerId);
    for i := 0 to |tool.servers|
      invariant known == Keys(servers, ServerId)
      invariant servers + NewEntries(known, tool.servers[i..], ServerId) ==
                MergeKeyed(master.servers, tool.servers, ServerId)
    {
      var s := tool.servers[i];
      assert tool.servers[i..] == [s] + tool.servers[i + 1..];
      if s.id !in known {
        KeysOfConcat(servers, [s], ServerId);
        assert Keys([s], ServerId) == {s.id} by { assert [s][0] == s; }
        known := known + {s.id};
        servers := servers + [s];
      }
    }
    var overrides := MergeProjectOverrides(master.projectOverrides, tool.projectOverrides);
    merged := McpSettings(servers, overrides);
  }

  /** The files `before` become when the tool at `path`, holding `current`,
    * is synced against `master`: kept when it already equals the master,
    * otherwise an attempt to write the merge there. */
  function SyncedFiles(fs: FileSystem, before: map<string, FileContent>, path: string, master: McpSettings, current: McpSettings)
    : map<string, FileContent>
    reads fs
  {
    if current == master then before else fs.Written(before, path, Merged(master, current))
  }

  /** The message `sync_tool` records with an outcome of that status. */
  function OutcomeMessage(status: SyncStatus): string {
    if status == Skipped then "Already up-to-date" else "Configuration updated"
  }

  /** `sync_tool`: a tool equal to the master is recorded as Skipped and its
    * file is left alone; any other tool's file is overwritten with the
    * merge, and only after a successful write is Updated recorded. A failed
    * write or a failed history insert is returned as the error; the step
    * itself never produces Failed. */
  method SyncTool(tool: ToolConfiguration, master: McpSettings, db: Database, fs: FileSystem, now: Timestamp)
    returns (r: Result<SyncSummary, BackendError>)
    modifies db`history, fs`files
    ensures r.Ok? <==> !db.failing && (tool.settings == master || fs.Writable(tool.configPath))
    ensures r.Err? ==> r.error == if tool.settings != master && !fs.Writable(tool.configPath) then Io else Database
    ensures r.Ok? ==> r.value.tool == tool.name && r.value.syncedAt == now
    ensures r.Ok? ==> (r.value.status == Skipped <==> tool.settings == master)
    ensures r.Ok? ==> (r.value.status == Updated <==> tool.settings != master)
    ensures r.Ok? && tool.settings == master ==> r.value.message == "Already up-to-date"
    ensures r.Ok? && tool.settings != master ==> r.value.message == "Configuration updated"
    ensures r.Ok? ==> db.history == old(db.history) + [EncodeRow(r.value)]
    ensures r.Err? ==> db.history == old(db.history)
    // the file is written before the outcome is recorded, so a failed
    // insert still leaves the merge written
    ensures fs.files == SyncedFiles(fs, old(fs.files), tool.configPath, master, tool.settings)
  {
    var current := tool.settings;
    if current == master {
      var summary := SyncSummary(tool.name, Skipped, "Already up-to-date", now);
      var recorded := db.RecordSync(summary);
      if recorded.Err? {
        return Err(recorded.error);
      }
      return Ok(summary);
    }
    var normalized := MergeSettings(master, current);
    var written := fs.WriteSettings(tool.configPath, normalized);
    if written.Err? {
      return Err(written.error);
    }
    var summary := SyncSummary(tool.name, Updated, "Configuration updated", now);
    var recorded := db.RecordSync(summary);
    if recorded.Err? {
      return Err(recorded.error);
    }
    return Ok(summary);
  }

  // ---------------------------------------------------------------------
  // Discovery. A path is the sequence of its components; the walk of the
  // configuration root (to a depth of two) is given as the entries it
  // yields, and the file system read is the FileSystem's.

  datatype WalkEntry = WalkEntry(path: seq<string>, isFile: bool)

  /** The path as text, components joined by "/". */
  function JoinPath(path: seq<string>): string {
    if path == [] then ""
    else if |path| == 1 then path[0]
    else path[0] + "/" + JoinPath(path[1..])
  }

  /** A tool is named after the directory that holds its file; a path with
    * no such directory name (a bare file name, or a parent ending in "..")
    * gives "unknown". */
  function ToolName(path: seq<string>): (name: string)
    ensures |path| >= 2 && path[|path| - 2] != ".." ==> name == path[|path| - 2]
    ensures |path| < 2 || path[|path| - 2] == ".." ==> name == "unknown"
  {
    if |path| >= 2 && path[|path| - 2] != ".." then path[|path| - 2] else "unknown"
  }

  /** A walk entry is a tool configuration when it is a file named `mcp.json`. */
  predicate IsToolConfig(e: WalkEntry) {
    e.isFile && |e.path| > 0 && e.path[|e.path| - 1] == MCP_FILE_NAME
  }

  /** The registry after recording each found configuration in turn. */
  function Registered(tools: map<string, ToolRow>, found: seq<WalkEntry>, now: Timestamp): map<string, ToolRow>
    decreases |found|
  {
    if found == [] then tools
    else Registered(tools[ToolName(found[0].path) := ToolRow(JoinPath(found[0].path), now)], found[1..], now)
  }

  /** The name a walk entry registers under. */
  function EntryName(e: WalkEntry): string {
    ToolName(e.path)
  }

  /** Registering adds exactly the found names to the registry. */
  lemma {:induction false} RegisteredKeys(tools: map<string, ToolRow>, found: seq<WalkEntry>, now: Timestamp)
    ensures Registered(tools, found, now).Keys == tools.Keys + Keys(found, EntryName)
    decreases |found|
  {
    if found != [] {
      var init, e := found[..|found| - 1], found[|found| - 1];
      assert found == init + [e];
      RegisteredSnoc(tools, init, e, now);
      RegisteredKeys(tools, init, now);
      KeysOfConcat(init, [e], EntryName);
      assert Keys([e], EntryName) == {EntryName(e)} by { assert [e][0] == e; }
    }
  }

  /** A tool whose name was not found keeps its registry row. */
  lemma {:induction false} RegisteredKeepsOthers(tools: map<string, ToolRow>, found: seq<WalkEntry>, now: Timestamp, n: string)
    requires n in tools && n !in Keys(found, EntryName)
    ensures n in Registered(tools, found, now) && Registered(tools, found, now)[n] == tools[n]
    decreases |found|
  {
    if found != [] {
      var init, e := found[..|found| - 1], found[|found| - 1];
      assert found == init + [e];
      RegisteredSnoc(tools, init, e, now);
      KeysOfConcat(init, [e], EntryName);
      assert EntryName(e) in Keys(found, EntryName) by { assert found[|found| - 1] == e; }
      RegisteredKeepsOthers(tools, init, now, n);
    }
  }

  /** A name found several times keeps the path found last. */
  lemma {:induction false} RegisteredLastWins(tools: map<string, ToolRow>, found: seq<WalkEntry>, now: Timestamp, i: nat)
    requires i < |found|
    requires forall j :: i < j < |found| ==> EntryName(found[j]) != EntryName(found[i])
    ensures EntryName(found[i]) in Registered(tools, found, now)
    ensures Registered(tools, found, now)[EntryName(found[i])] == ToolRow(JoinPath(found[i].path), now)
    decreases |found|
  {
    var init, e := found[..|found| - 1], found[|found| - 1];
    assert found == init + [e];
    RegisteredSnoc(tools, init, e, now);
    if i < |found| - 1 {
      assert init[i] == found[i];
      assert EntryName(e) != EntryName(found[i]);
      RegisteredLastWins(tools, init, now, i);
    }
  }

  lemma {:induction false} RegisteredSnoc(tools: map<string, ToolRow>, found: seq<WalkEntry>, e: WalkEntry, now: Timestamp)
    ensures Registered(tools, found + [e], now) ==
      Registered(tools, found, now)[ToolName(e.path) := ToolRow(JoinPath(e.path), now)]
    decreases |found|
  {
    if found == [] {
      assert [] + [e] == [e];
      assert [e][1..] == [];
    } else {
      assert (found + [e])[1..] == found[1..] + [e];
      RegisteredSnoc(tools[ToolName(found[0].path) := ToolRow(JoinPath(found[0].path), now)], found[1..], e, now);
    }
  }

  /** `config` is what discovery reports for the walk entry `e`: the tool
    * named after its directory, its path, and the settings its file holds. */
  predicate Reported(fs: FileSystem, config: ToolConfiguration, e: WalkEntry)
    reads fs
  {
    fs.ReadSettings(JoinPath(e.path)).Ok? &&
    config == NewToolConfiguration(ToolName(e.path), JoinPath(e.path), fs.ReadSettings(JoinPath(e.path)).value)
  }

  /** Discovery stopped at the `m`-th found configuration with `error`:
    * every earlier one was read and registered, and the `m`-th one either
    * did not read or could not be recorded. */
  ghost predicate StoppedAt(db: Database, fs: FileSystem, before: map<string, ToolRow>, found: seq<WalkEntry>, m: nat, now: Timestamp, error: BackendError)
    reads db, fs
  {
    && m < |found|
    && (forall k :: 0 <= k < m ==> fs.ReadSettings(JoinPath(found[k].path)).Ok?)
    && db.tools == Registered(before, found[..m], now)
    && var read := fs.ReadSettings(JoinPath(found[m].path));
       if read.Err? then error == read.error else db.failing && error == Database
  }

  /** Every found configuration reads, and the store records them. */
  ghost predicate Discoverable(db: Database, fs: FileSystem, found: seq<WalkEntry>)
    reads db, fs
  {
    (found == [] || !db.failing) &&
    forall k :: 0 <= k < |found| ==> fs.ReadSettings(JoinPath(found[k].path)).Ok?
  }

  /** Where discovery stops, not every configuration was discoverable. */
  lemma StoppedNotDiscoverable(db: Database, fs: FileSystem, before: map<string, ToolRow>, found: seq<WalkEntry>, m: nat, now: Timestamp, error: BackendError)
    requires StoppedAt(db, fs, before, found, m, now, error)
    ensures !Discoverable(db, fs, found)
  {
  }

  /** Discovery that fails on the configuration at walk entry `i` stops
    * there, so not every configuration was discoverable. */
  lemma DetectionStopped(db: Database, fs: FileSystem, before: map<string, ToolRow>, walk: seq<WalkEntry>, i: nat,
                         configs: seq<ToolConfiguration>, now: Timestamp, error: BackendError)
    requires i < |walk| && IsToolConfig(walk[i])
    requires Discovered(fs, before, db.tools, Filter(walk[..i], IsToolConfig), configs, now)
    requires var read := fs.ReadSettings(JoinPath(walk[i].path));
      if read.Err? then error == read.error else db.failing && error == Database
    ensures StoppedAt(db, fs, before, Filter(walk, IsToolConfig), |Filter(walk[..i], IsToolConfig)|, now, error)
    ensures !Discoverable(db, fs, Filter(walk, IsToolConfig))
  {
    var all := Filter(walk, IsToolConfig);
    var found := Filter(walk[..i], IsToolConfig);
    var m := |found|;
    FoundSplit(walk, i);
    assert all[..m] == found && all[m] == walk[i];
    assert forall k :: 0 <= k < m ==> all[k] == found[k];
    assert forall k :: 0 <= k < m ==> fs.ReadSettings(JoinPath(all[k].path)).Ok?;
    assert db.tools == Registered(before, all[..m], now);
    assert StoppedAt(db, fs, before, all, m, now, error);
    StoppedNotDiscoverable(db, fs, before, all, m, now, error);
  }

  /** What discovery keeps after the configurations `found`: each reported
    * in `configs`, and the registry `tools` holding them on top of `before`. */
  ghost predicate Discovered(fs: FileSystem, before: map<string, ToolRow>, tools: map<string, ToolRow>,
                             found: seq<WalkEntry>, configs: seq<ToolConfiguration>, now: Timestamp)
    reads fs
  {
    && |configs| == |found|
    && (forall j :: 0 <= j < |found| ==> Reported(fs, configs[j], found[j]))
    && tools == Registered(before, found, now)
  }

  lemma DiscoveredStep(fs: FileSystem, before: map<string, ToolRow>, tools: map<string, ToolRow>,
                       found: seq<WalkEntry>, configs: seq<ToolConfiguration>, entry: WalkEntry, config: ToolConfiguration, now: Timestamp)
    requires Discovered(fs, before, tools, found, configs, now) && Reported(fs, config, entry)
    ensures Discovered(fs, before, tools[ToolName(entry.path) := ToolRow(JoinPath(entry.path), now)],
                       found + [entry], configs + [config], now)
  {
    RegisteredSnoc(before, found, entry, now);
  }

  /** The configurations among the first `i + 1` walk entries. */
  lemma FoundStep(walk: seq<WalkEntry>, i: nat)
    requires i < |walk|
    ensures Filter(walk[..i + 1], IsToolConfig) ==
      Filter(walk[..i], IsToolConfig) + if IsToolConfig(walk[i]) then [walk[i]] else []
  {
    assert walk[..i + 1] == walk[..i] + [walk[i]];
    FilterConcat(walk[..i], [walk[i]], IsToolConfig);
    assert [walk[i]][1..] == [];
  }

  /** The configurations of the whole walk are those of its first `i`
    * entries, then entry `i` when it is one, then those of the rest. */
  lemma FoundSplit(walk: seq<WalkEntry>, i: nat)
    requires i < |walk| && IsToolConfig(walk[i])
    ensures var found := Filter(walk[..i], IsToolConfig);
      var all := Filter(walk, IsToolConfig);
      |found| < |all| && all[..|found|] == found && all[|found|] == walk[i]
  {
    var found := Filter(walk[..i], IsToolConfig);
    FoundStep(walk, i);
    assert walk == walk[..i + 1] + walk[i + 1..];
    FilterConcat(walk[..i + 1], walk[i + 1..], IsToolConfig);
    var all := Filter(walk, IsToolConfig);
    assert all == found + [walk[i]] + Filter(walk[i + 1..], IsToolConfig);
  }

  /** One found configuration of `discover_tools`: reads it, then records
    * the tool. */
  method DetectTool(db: Database, fs: FileSystem, entry: WalkEntry, now: Timestamp)
    returns (r: Result<ToolConfiguration, BackendError>)
    modifies db`tools
    ensures var read := fs.ReadSettings(JoinPath(entry.path));
      && (r.Ok? <==> read.Ok? && !db.failing)
      && (r.Err? ==> r.error == if read.Err? then read.error else Database)
    ensures r.Ok? ==> Reported(fs, r.value, entry)
    ensures r.Ok? ==> db.tools == old(db.tools)[ToolName(entry.path) := ToolRow(JoinPath(entry.path), now)]
    ensures r.Err? ==> db.tools == old(db.tools)
  {
    var path := JoinPath(entry.path);
    var name := ToolName(entry.path);
    var settings := fs.ReadSettings(path);
    if settings.Err? {
      return Err(settings.error);
    }
    var config := NewToolConfiguration(name, path, settings.value);
    var recorded := db.RecordToolDetection(name, path, now);
    if recorded.Err? {
      return Err(recorded.error);
    }
    return Ok(config);
  }

  /** `discover_tools`: for every `mcp.json` file of the walk, in walk
    * order, reads its settings, registers the tool and reports its
    * configuration. A missing root gives no tools; the first failure ends
    * the discovery and is returned, with the tools found before it left
    * registered. */
  method DiscoverTools(db: Database, fs: FileSystem, rootExists: bool, walk: seq<WalkEntry>, now: Timestamp)
    returns (r: Result<seq<ToolConfiguration>, BackendError>)
    modifies db`tools
    ensures !rootExists ==> r == Ok([]) && db.tools == old(db.tools)
    ensures rootExists ==> (r.Ok? <==> Discoverable(db, fs, Filter(walk, IsToolConfig)))
    ensures rootExists && r.Ok? ==>
      var found := Filter(walk, IsToolConfig);
      && |r.value| == |found|
      && (forall i :: 0 <= i < |found| ==> Reported(fs, r.value[i], found[i]))
      && db.tools == Registered(old(db.tools), found, now)
    ensures rootExists && r.Err? ==>
      exists m :: StoppedAt(db, fs, old(db.tools), Filter(walk, IsToolConfig), m, now, r.error)
  {
    if !rootExists {
      return Ok([]);
    }
    var configs: seq<ToolConfiguration> := [];
    ghost var found: seq<WalkEntry> := [];
    for i := 0 to |walk|
      invariant found == Filter(walk[..i], IsToolConfig)
      invariant Discovered(fs, old(db.tools), db.tools, found, configs, now)
      invariant found != [] ==> !db.failing
    {
      var entry := walk[i];
      FoundStep(walk, i);
      if IsToolConfig(entry) {
        ghost var tools := db.tools;
        var detected := DetectTool(db, fs, entry, now);
        if detected.Err? {
          DetectionStopped(db, fs, old(db.tools), walk, i, configs, now, detected.error);
          return Err(detected.error);
        }
        DiscoveredStep(fs, old(db.tools), tools, found, configs, entry, detected.value, now);
        configs := configs + [detected.value];
        found := found + [entry];
      }
    }
    assert walk[..|walk|] == walk;
    return Ok(configs);
  }

  /** The walk of a root holding two tool directories. */
  function TwoToolWalk(): seq<WalkEntry> {
    [WalkEntry(["..", "tool_configs"], false),
     WalkEntry(["..", "tool_configs", "toolA"], false),
     WalkEntry(["..", "tool_configs", "toolA", "mcp.json"], true),
     WalkEntry(["..", "tool_configs", "toolB"], false),
     WalkEntry(["..", "tool_configs", "toolB", "mcp.json"], true)]
  }

  /** Only the two `mcp.json` files of that walk are tool configurations. */
  lemma TwoToolWalkFound()
    ensures Filter(TwoToolWalk(), IsToolConfig) ==
      [WalkEntry(["..", "tool_configs", "toolA", "mcp.json"], true),
       WalkEntry(["..", "tool_configs", "toolB", "mcp.json"], true)]
  {
    var w := TwoToolWalk();
    assert !IsToolConfig(w[0]) && !IsToolConfig(w[1]) && IsToolConfig(w[2]);
    assert !IsToolConfig(w[3]) && IsToolConfig(w[4]);
    assert w[1..][1..][1..][1..][1..] == [];
  }

  /** A configuration path is joined with "/". */
  lemma JoinToolPath(tool: string)
    ensures JoinPath(["..", "tool_configs", tool, "mcp.json"]) == "../tool_configs/" + tool + "/mcp.json"
  {
    var p := ["..", "tool_configs", tool, "mcp.json"];
    assert p[1..][1..][1..] == ["mcp.json"];
    assert JoinPath(p[1..][1..]) == tool + "/" + "mcp.json";
    assert JoinPath(p[1..]) == "tool_configs" + "/" + (tool + "/" + "mcp.json");
    assert JoinPath(p) == ".." + "/" + ("tool_configs" + "/" + (tool + "/" + "mcp.json"));
    assert ".." + "/" + "tool_configs" + "/" == "../tool_configs/";
    assert "/" + "mcp.json" == "/mcp.json";
  }

  /** Discovering that walk registers exactly the two tools, by directory name. */
  lemma DiscoveryScenario(now: Timestamp)
    ensures Registered(map[], Filter(TwoToolWalk(), IsToolConfig), now) ==
      map["toolA" := ToolRow("../tool_configs/toolA/mcp.json", now),
          "toolB" := ToolRow("../tool_configs/toolB/mcp.json", now)]
  {
    TwoToolWalkFound();
    var a := WalkEntry(["..", "tool_configs", "toolA", "mcp.json"], true);
    var b := WalkEntry(["..", "tool_configs", "toolB", "mcp.json"], true);
    RegisteredPair(map[], a, b, now);
    ScenarioPaths();
  }

  /** The names and paths the two files of that walk register under. */
  lemma ScenarioPaths()
    ensures ToolName(["..", "tool_configs", "toolA", "mcp.json"]) == "toolA"
    ensures ToolName(["..", "tool_configs", "toolB", "mcp.json"]) == "toolB"
    ensures JoinPath(["..", "tool_configs", "toolA", "mcp.json"]) == "../tool_configs/toolA/mcp.json"
    ensures JoinPath(["..", "tool_configs", "toolB", "mcp.json"]) == "../tool_configs/toolB/mcp.json"
  {
    JoinToolPath("toolA");
    JoinToolPath("toolB");
    assert "../tool_configs/" + "toolA" + "/mcp.json" == "../tool_configs/toolA/mcp.json";
    assert "../tool_configs/" + "toolB" + "/mcp.json" == "../tool_configs/toolB/mcp.json";
  }

  /** Registering two found configurations, one after the other. */
  lemma RegisteredPair(tools: map<string, ToolRow>, a: WalkEntry, b: WalkEntry, now: Timestamp)
    ensures Registered(tools, [a, b], now) ==
      tools[ToolName(a.path) := ToolRow(JoinPath(a.path), now)][ToolName(b.path) := ToolRow(JoinPath(b.path), now)]
  {
    var withA := tools[ToolName(a.path) := ToolRow(JoinPath(a.path), now)];
    assert [a, b][1..] == [b] && [b][1..] == [];
    assert Registered(tools, [a, b], now) == Registered(withA, [b], now);
    assert Registered(withA, [b], now) == Registered(withA[ToolName(b.path) := ToolRow(JoinPath(b.path), now)], [], now);
  }

  /** A `mcp.json` directly under the root is named after the root itself. */
  lemma RootLevelConfigNamedAfterRoot()
    ensures ToolName(["..", "tool_configs", "mcp.json"]) == "tool_configs"
  {
  }
}

=== FILE: wrappers.dfy ===
/** Option and Result, the two failure-carrying shapes the model needs. */
module Wrappers {

  datatype Option<+T> = None | Some(value: T) {
    /** The value, or `default` when there is none (Rust's `unwrap_or`). */
    function GetOr(default: T): T {
      match this
      case Some(v) => v
      case None => default
    }
  }

  datatype Result<+T, +E> = Ok(value: T) | Err(error: E)
}
